=== FILE: README.md ===
# MedMorph to CIBMTR converter — a Dafny model

This project models the decision logic of `MedMorphToCIBMTR`, the class
that forwards a MedMorph report to the CIBMTR registry. It covers these steps:

- read the sending organization's transplant-center code (CCN) from the report;
- obtain the patient's CRID from the record-linkage service;
- check whether the registry already holds a patient with that CRID, and create one if it does not;
- send the report's observations that the registry does not yet hold, as one transaction bundle.

Every remote call is replaced by the reply it produced. `Pipeline.Convert`
is a pure function from the report, the MessageHeader and those replies
(`Pipeline.Oracles`) to the sequence of remote calls the converter issues
(`Registry.Call`). It also records whether an exception escaped `convert`.

Modules, one per concern of the class:

- `Wrappers` holds `Option` (Java `null`) and `Attempt` (a returned value, or an escaping exception).
- `Text` holds `indexOf`, `contains` and `endsWith` over `string`.
- `Report` holds the inbound FHIR resources, reduced to the fields the converter reads.
- `Security` holds the code-system constants and `getMeta`.
- `Registry` holds the base URL, the outbound payloads, the remote calls, their replies, and the shared GET response handler.
- `CcnResolver` models `getCcn`.
- `Patients` models `getCrid`, `checkIfPatientExists` and `postPatient`.
- `Observations` models `postBundle` and `getObservationEntries`.
- `Pipeline` models `convert`.
- `Scenarios` holds concrete runs on a John Doe report with a height and a weight observation.

## Behaviour of the code worth knowing

The model follows the code as written. These behaviours are easy to miss:

- A patient search that fails, or does not answer 200, reads as "no such patient", so the converter creates one (`Scenarios.FailedCheckStillCreates`).
- Several perfect matches are not an error: the first one's crid is used (`Patients.FirstPerfectMatchWins`).
- A dedup search that answers with a status other than 200 keeps the observation. A search that throws, or a 200 body without an integer `total`, ends the loop with an exception. `postBundle` catches that exception and posts nothing.
- `convert` returns nothing. A failing remote call never escapes it: it reads as a missing crid, a missing patient or resource id, or an aborted observation loop. Exceptions caused by the report's own shape do escape, and a run records them in `raised`. Examples: a report with a single entry (line 50), a second entry that is not a Bundle (line 50), a sender without a reference (line 279), a referenced entry that is not an Organization (line 290).
- The comment at line 278 assumes the sender reference has the form `Organization/id`. The code only checks that the reference contains `Organization/`, then drops its first 13 characters. The result is the bare id only when the reference starts with `Organization/` (`CcnResolver.BareIdOfPrefixed`).
- A `Location` of `Patient/<id>`, with the marker at index 0, yields no resource id (`Patients.ParseLocationRejects`).

## Model

| member | source | states |
|---|---|---|
| Text.IndexOf | src/main/java/org/mitre/hapifhir/MedMorphToCIBMTR.java:159 | the index is the first occurrence of the pattern; it is -1 exactly when the pattern does not occur |
| Registry.NewClient | src/main/java/org/mitre/hapifhir/MedMorphToCIBMTR.java:40-43 | the base URL ends with `/`, extends the given URL by at most that one character, and is unchanged when it already ended with `/` |
| Registry.NewClientIdempotent | src/main/java/org/mitre/hapifhir/MedMorphToCIBMTR.java:40-43 | normalising a normalised base URL changes nothing |
| Registry.Target | src/main/java/org/mitre/hapifhir/MedMorphToCIBMTR.java:73-208 | every request URL lies strictly below the base URL, at its kind's endpoint: `CRID` (line 73), the `_security`/`identifier` patient query (line 115), `Patient` (line 137), `Bundle` (line 176), `Observation?identifier=<fullUrl>` (line 208) |
| Registry.PatientSearchFiltersOnTag | src/main/java/org/mitre/hapifhir/MedMorphToCIBMTR.java:115 | the existence check queries the security tag `getMeta` writes for the CCN, and the crid as identifier |
| Registry.ObservationSearchDistinguishes | src/main/java/org/mitre/hapifhir/MedMorphToCIBMTR.java:208 | two dedup searches go to the same URL exactly when they look up the same fullUrl |
| Registry.HandledBody | src/main/java/org/mitre/hapifhir/MedMorphToCIBMTR.java:105-110 | the GET handler yields a body exactly for status 200 with an entity |
| Registry.JavaInt | src/main/java/org/mitre/hapifhir/MedMorphToCIBMTR.java:122 | the `int` that `getInt("total")` reads is in the 32-bit range |
| Registry.JavaIntNarrows | src/main/java/org/mitre/hapifhir/MedMorphToCIBMTR.java:214 | the `int` read differs from the JSON total by a multiple of 2^32, and equals it when the total fits in 32 bits |
| Security.GetMeta | src/main/java/org/mitre/hapifhir/MedMorphToCIBMTR.java:261-271 | exactly one security tag, under the transplant-center system, with code `rc_` + ccn, from which the ccn can be read back |
| Security.GetMetaInjective | src/main/java/org/mitre/hapifhir/MedMorphToCIBMTR.java:261-271 | two CCNs get the same security metadata only if they are equal |
| Report.FirstPatient | src/main/java/org/mitre/hapifhir/MedMorphToCIBMTR.java:52 | yields an entry exactly when a Patient entry exists, and then the first one |
| Report.ObservationsOf | src/main/java/org/mitre/hapifhir/MedMorphToCIBMTR.java:174 | keeps only Observation entries, never more than the input |
| Report.ObservationsOfSelects | src/main/java/org/mitre/hapifhir/MedMorphToCIBMTR.java:174 | every selected entry comes from the input, and every Observation entry of the input is selected |
| Report.ObservationsOfAppend | src/main/java/org/mitre/hapifhir/MedMorphToCIBMTR.java:174 | the selection keeps input order: selecting from a concatenation is concatenating the selections |
| CcnResolver.FindReferenced | src/main/java/org/mitre/hapifhir/MedMorphToCIBMTR.java:283-288 | the first entry whose id equals the full reference or the bare id; none when no entry's id matches |
| CcnResolver.FirstCcn | src/main/java/org/mitre/hapifhir/MedMorphToCIBMTR.java:290-302 | the value of the first identifier with a non-null value under the CCN system; none exactly when no identifier qualifies |
| CcnResolver.GetCcn | src/main/java/org/mitre/hapifhir/MedMorphToCIBMTR.java:274-303 | throws exactly for a null reference or a referenced non-Organization entry; a CCN only through the first referenced Organization's first qualifying identifier; null for a reference without `Organization/`, no referenced entry, or no qualifying identifier |
| CcnResolver.FirstCcnYields | src/main/java/org/mitre/hapifhir/MedMorphToCIBMTR.java:290-302 | whatever the first qualifying identifier carries is the CCN returned |
| CcnResolver.BareIdOfPrefixed | src/main/java/org/mitre/hapifhir/MedMorphToCIBMTR.java:278-280 | for `Organization/<id>` the bare id is `<id>` |
| CcnResolver.GetCcnResolves | src/main/java/org/mitre/hapifhir/MedMorphToCIBMTR.java:274-303 | a reference `Organization/<id>` that first refers to an Organization resolves to the CCN that Organization's identifiers yield |
| Patients.CridRequestFor | src/main/java/org/mitre/hapifhir/MedMorphToCIBMTR.java:78-85 | the request is built exactly when the first name has a given part and birth date and gender are set; it carries the ccn, first given name, family name, birth date and gender display |
| Patients.GetCrid | src/main/java/org/mitre/hapifhir/MedMorphToCIBMTR.java:94-102 | a crid exactly when the reply has a first perfect match with a numeric crid, and it is that crid |
| Patients.FirstPerfectMatchWins | src/main/java/org/mitre/hapifhir/MedMorphToCIBMTR.java:96-97 | with several perfect matches, the first one's crid is used |
| Patients.ExistingPatientId | src/main/java/org/mitre/hapifhir/MedMorphToCIBMTR.java:119-131 | an id exactly when the search answered 200 with `total > 0` and a readable first id; every failure reads as absent |
| Patients.PatientPayloadFor | src/main/java/org/mitre/hapifhir/MedMorphToCIBMTR.java:141-151 | the created patient carries the CCN's security tag, an empty narrative, and the crid as its one official CRID identifier |
| Patients.CreatedPatientIsFound | src/main/java/org/mitre/hapifhir/MedMorphToCIBMTR.java:141-151 | the created patient matches the existence check's query for the same CCN and CRID, and no other CCN's query |
| Patients.ParseLocation | src/main/java/org/mitre/hapifhir/MedMorphToCIBMTR.java:155-164 | an id exactly for status 200 or 201 with a `Location` whose first `Patient/` is at an index above 0; the id is the text after that occurrence |
| Patients.ParseLocationRoundTrip | src/main/java/org/mitre/hapifhir/MedMorphToCIBMTR.java:158-160 | `<prefix>Patient/<id>` yields `<id>` for any non-empty prefix that does not itself contain `Patient/` |
| Patients.ParseLocationRejects | src/main/java/org/mitre/hapifhir/MedMorphToCIBMTR.java:157-160 | a relative `Patient/<id>` and any status other than 200 or 201 yield nothing |
| Observations.EntryFor | src/main/java/org/mitre/hapifhir/MedMorphToCIBMTR.java:221-255 | the entry is `POST Observation` for subject `Patient/<id>`, with `getMeta(ccn)`, one official RFC 3986 identifier whose value is the fullUrl, and the first coding, effective instant and quantity copied through |
| Observations.VerdictOf | src/main/java/org/mitre/hapifhir/MedMorphToCIBMTR.java:201-247 | no fullUrl: skipped; new patient: never skipped, kept exactly when a payload can be built; known patient: skipped exactly when the search reports `total > 0`, aborted when it throws, and otherwise kept exactly when a payload can be built |
| Observations.Kept | src/main/java/org/mitre/hapifhir/MedMorphToCIBMTR.java:201-219 | every kept entry is one the loop keeps, so it has a fullUrl and a payload can be built from it |
| Observations.KeptFromInput | src/main/java/org/mitre/hapifhir/MedMorphToCIBMTR.java:201-219 | every kept entry comes from the input |
| Observations.ScanEntries | src/main/java/org/mitre/hapifhir/MedMorphToCIBMTR.java:198-259 | the loop completes exactly when no entry aborts, and then yields the kept entries' payloads in order after the fullUrl searches of a known patient; otherwise it stops at the first aborting entry, having searched up to it; a new patient's scan searches nothing |
| Observations.KeptAppend | src/main/java/org/mitre/hapifhir/MedMorphToCIBMTR.java:201-256 | filtering distributes over concatenation, so input order is kept |
| Observations.KeptComplete | src/main/java/org/mitre/hapifhir/MedMorphToCIBMTR.java:201-256 | every entry the loop keeps appears in the output |
| Observations.NewPatientKeepsAll | src/main/java/org/mitre/hapifhir/MedMorphToCIBMTR.java:206-207 | for a new patient whose entries with a fullUrl can all be built, nothing aborts, every entry with a fullUrl is kept, and the scan completes without a search, yielding the payloads of the kept entries |
| Observations.KnownKeepsUnheld | src/main/java/org/mitre/hapifhir/MedMorphToCIBMTR.java:201-219 | for a known patient whose searches all answer and whose entries can all be built, nothing aborts and the loop keeps exactly the entries with a fullUrl the registry does not hold, in order |
| Observations.DedupCount | src/main/java/org/mitre/hapifhir/MedMorphToCIBMTR.java:207-219 | of N entries with a fullUrl, M of them already held, a completed scan keeps exactly N - M |
| Observations.AllHeldKeepsNothing | src/main/java/org/mitre/hapifhir/MedMorphToCIBMTR.java:207-219 | when the registry holds every fullUrl, a known patient's scan keeps nothing |
| Observations.PostBundle | src/main/java/org/mitre/hapifhir/MedMorphToCIBMTR.java:173-219 | only Observation entries count; no searches for a new patient; when nothing aborts, the calls are the search of every looked-up fullUrl followed by the bundle of the kept entries if there are any; when an entry aborts, the calls are the searches up to and including it and nothing else; every posted entry has the required shape |
| Observations.PostedCoversEntries | src/main/java/org/mitre/hapifhir/MedMorphToCIBMTR.java:198-259 | after a post, each Observation entry with a fullUrl is in the bundle under that fullUrl or was reported as held |
| Observations.HeldPostsNothing | src/main/java/org/mitre/hapifhir/MedMorphToCIBMTR.java:184-187 | when every observation is held, no bundle is posted for a known patient |
| Observations.KnownPatientPostsUnheld | src/main/java/org/mitre/hapifhir/MedMorphToCIBMTR.java:173-219 | for a known patient whose searches all answer and whose entries can all be built, every fullUrl is searched in order, whether or not anything is posted; a bundle follows exactly when some entry is not held, and it holds the payloads of exactly those entries |
| Pipeline.Convert | src/main/java/org/mitre/hapifhir/MedMorphToCIBMTR.java:45-68 | for a report with at least one entry, an exception escapes exactly for a report with one entry, a second entry that is not a Bundle, or a CCN lookup that throws, and then before any call; no call without a content bundle, a patient and a CCN; calls come in the order CRID, patient search, create, dedup searches, bundle, each but the searches at most once |
| Pipeline.Submit | src/main/java/org/mitre/hapifhir/MedMorphToCIBMTR.java:59-66 | the create is issued exactly when the check found nothing, and it sends the CCN's tag and the crid; after a create there are no dedup searches; the bundle names the found or created patient; no bundle without a resource id |
| Pipeline.ResolveCrid | src/main/java/org/mitre/hapifhir/MedMorphToCIBMTR.java:71-103 | the CRID request is sent exactly for a patient with a given name, a birth date and a gender; a crid is known only if the request was sent and its first perfect match carries one, and it is that crid |
| Pipeline.KnownPatientSubmit | src/main/java/org/mitre/hapifhir/MedMorphToCIBMTR.java:59-66 | for a patient the check found, the run goes on with `postBundle` for that patient with `isPatientNew` false |
| Pipeline.UnknownPatientSubmit | src/main/java/org/mitre/hapifhir/MedMorphToCIBMTR.java:59-66 | for a patient the check did not find, the run creates the patient and, if the create reply yields a resource id, goes on with `postBundle` with `isPatientNew` true |
| Pipeline.ConvertComposes | src/main/java/org/mitre/hapifhir/MedMorphToCIBMTR.java:45-66 | a report that resolves a CCN and a patient raises nothing; it sends the CRID request exactly when one can be built, and goes on with `Submit` exactly when the reply yields a crid |
| Pipeline.NoCridStops | src/main/java/org/mitre/hapifhir/MedMorphToCIBMTR.java:57-58 | without a crid the run stops after the CRID request |
| Pipeline.CreateExactlyWhenAbsent | src/main/java/org/mitre/hapifhir/MedMorphToCIBMTR.java:59-64 | at most one create, right after the existence check, and exactly when the check found nothing |
| Pipeline.RunCreatesWhatItSearches | src/main/java/org/mitre/hapifhir/MedMorphToCIBMTR.java:112-151 | the patient a run creates is one that the run's own existence check, issued just before, would find |
| Pipeline.NewPatientIsNotDeduplicated | src/main/java/org/mitre/hapifhir/MedMorphToCIBMTR.java:60-66 | after a create no dedup search is issued; a posted bundle names the found patient, or else the created one |
| Pipeline.TargetsUnderBase | src/main/java/org/mitre/hapifhir/MedMorphToCIBMTR.java:40-43 | every call goes below the given base URL |
| Pipeline.ResubmissionPostsNothing | src/main/java/org/mitre/hapifhir/MedMorphToCIBMTR.java:59-66 | a second run, once the registry holds the patient and all it was sent or already held, creates nothing and posts nothing |
| Scenarios.NewPatientScenario | src/main/java/org/mitre/hapifhir/MedMorphToCIBMTR.java:45-68 | John Doe with one perfect match and no existing record: CRID request, patient search, one create, and one bundle with both observations naming patient 8557319952834071 |
| Scenarios.NoMatchScenario | src/main/java/org/mitre/hapifhir/MedMorphToCIBMTR.java:94-102 | with no perfect match, the CRID request is the only call |
| Scenarios.FailedCheckStillCreates | src/main/java/org/mitre/hapifhir/MedMorphToCIBMTR.java:129-131 | a failing existence check leads to a create |

## Left out

- Pipeline.Convert: `hasEntry()` at line 47 is modelled as "the entry list is non-empty". HAPI also makes it false when every entry is empty, meaning no fullUrl and a resource with no element set, and `convert` then returns quietly. The datatypes cannot mark a resource as empty, so for such a report the model sets `raised` where the code raises nothing. The calls are unaffected: a run that makes a call needs a non-empty Patient entry.
- HTTP transport is not modelled: the Apache client, the `Accept`/`Content-Type`/`Authorization` headers, and closing connections. The auth token is only forwarded, so it is not a parameter.
- JSON serialisation and the HAPI FHIR classes are replaced by small datatypes.
- Exceptions are not modelled as such. Each one becomes a failed reply, the `raised` flag of a run, or an aborted observation loop, matching where the code catches it.
- Decimals, dates and the birth date's rendering are opaque strings copied through. A crid is its decimal text.
- The reply to the bundle POST is never read by the code, so it is not modelled.
- Every entry is assumed to hold a resource. A null resource makes the code throw, and the model does not cover that.
- An absent `effective[x]` is given as `EffectiveDateTime(None)`, and an absent `value[x]` as a Quantity with no parts. That is what HAPI's `getEffectiveDateTimeType()` and `getValueQuantity()` return for them, so the payload then carries no `effectiveDateTime` and an empty `valueQuantity`. The model does not cover what HAPI does beyond that.
- Strings are sequences of Unicode scalar values. Java's `substring(13)` and `indexOf` count UTF-16 units, so the two differ when a reference or `Location` holds a character outside the Basic Multilingual Plane.
- `Entry.fullUrl` stands for what `hasFullUrl()` and `getFullUrl()` yield. A blank fullUrl, for which `hasFullUrl()` is false, must be given as `None`. The model treats `Some("")` as present.
- URLs are assumed to be syntactically valid. `new HttpGet(...)` and `new HttpPut(...)` throw on characters that are illegal in a URI, for instance in a fullUrl (line 208) or a crid (line 115). The model still lists such a call in the trace. A `SearchFailed` reply gives the same outcome as the exception.
- `total` is taken as a JSON integer. `getInt` also accepts a decimal, which it truncates, or a numeric string; those cases are not modelled.
- A reply to a dedup search is a function of the fullUrl. Two searches for the same fullUrl in one run therefore get the same reply, whereas a live registry could answer them differently.
- `findAny()` on the sequential entry streams is modelled as taking the first match.
- The check-then-act race between concurrent runs is not modelled: it is a property of the remote store.
- The unit test file is not modelled. It calls methods with signatures the class no longer has.

=== FILE: ccn.dfy ===
/** `getCcn`: the sending organization's transplant-center code (CCN), read
    from the report's own entries without any remote call. */
module CcnResolver {
  import opened Wrappers
  import opened Text
  import opened Security
  import opened Report

  /** The marker a sender reference must contain. */
  const OrganizationMarker: string := "Organization/"

  /** The reference with its first 13 characters, `|"Organization/"|`, dropped. */
  function BareId(reference: string): string
    requires |OrganizationMarker| <= |reference|
  {
    reference[|OrganizationMarker|..]
  }

  /** An entry is the one referred to when its id is the reference itself or
      the bare id. */
  predicate RefersTo(e: Entry, reference: string, bareId: string) {
    e.resource.id.Some? && (e.resource.id.value == reference || e.resource.id.value == bareId)
  }

  /** The index of the first entry at or after `from` referred to, or `None`. */
  function FindReferenced(entries: seq<Entry>, reference: string, bareId: string, from: nat): (r: Option<nat>)
    decreases |entries| - from
    ensures r.Some? ==> from <= r.value < |entries| && RefersTo(entries[r.value], reference, bareId)
    ensures forall j :: from <= j < |entries| && (r.None? || j < r.value) ==> !RefersTo(entries[j], reference, bareId)
  {
    if from >= |entries| then None
    else if RefersTo(entries[from], reference, bareId) then Some(from)
    else FindReferenced(entries, reference, bareId, from + 1)
  }

  /** An identifier the loop in `getCcn` accepts: both parts set, under the CCN system. */
  predicate Qualifies(id: Identifier) {
    id.system == Some(CcnSystem) && id.value.Some?
  }

  /** The value of the first qualifying identifier, or `None`. */
  function FirstCcn(ids: seq<Identifier>): (r: Option<string>)
    ensures r.None? <==> forall i :: 0 <= i < |ids| ==> !Qualifies(ids[i])
    ensures r.Some? ==> exists i :: 0 <= i < |ids| && Qualifies(ids[i]) && ids[i].value == r
                                   && forall j :: 0 <= j < i ==> !Qualifies(ids[j])
  {
    if |ids| == 0 then None
    else if Qualifies(ids[0]) then ids[0].value
    else
      var r := FirstCcn(ids[1..]);
      assert forall i :: 1 <= i < |ids| ==> ids[i] == ids[1..][i - 1];
      r
  }

  /** `ids` yields `v`: its first qualifying identifier carries value `v`. */
  ghost predicate YieldsCcn(ids: seq<Identifier>, v: string) {
    exists i :: 0 <= i < |ids| && Qualifies(ids[i]) && ids[i].value == Some(v)
                && forall j :: 0 <= j < i ==> !Qualifies(ids[j])
  }

  /** Entry `k` is the first entry `reference` refers to. */
  ghost predicate ResolvesTo(entries: seq<Entry>, reference: string, k: int) {
    && |OrganizationMarker| <= |reference|
    && 0 <= k < |entries|
    && RefersTo(entries[k], reference, BareId(reference))
    && forall j :: 0 <= j < k ==> !RefersTo(entries[j], reference, BareId(reference))
  }

  /** `getCcn(reportEntries, messageHeader)`. A null sender reference and a
      referred-to entry that is not an Organization make it throw. */
  function GetCcn(entries: seq<Entry>, header: Header): (r: Attempt<Option<string>>)
    ensures r.Raised? <==>
              || header.senderReference.None?
              || (&& Contains(header.senderReference.value, OrganizationMarker)
                  && exists k :: ResolvesTo(entries, header.senderReference.value, k)
                                 && !entries[k].resource.content.Organization?)
    ensures r.Returned? && r.value.Some? ==>
              && Contains(header.senderReference.value, OrganizationMarker)
              && exists k :: ResolvesTo(entries, header.senderReference.value, k)
                             && entries[k].resource.content.Organization?
                             && YieldsCcn(entries[k].resource.content.identifiers, r.value.value)
    ensures r == Returned(None) ==>
              var reference := header.senderReference.value;
              || !Contains(reference, OrganizationMarker)
              || (forall k :: 0 <= k < |entries| ==> !RefersTo(entries[k], reference, BareId(reference)))
              || exists k :: ResolvesTo(entries, reference, k)
                             && entries[k].resource.content.Organization?
                             && forall i :: 0 <= i < |entries[k].resource.content.identifiers| ==>
                                              !Qualifies(entries[k].resource.content.identifiers[i])
  {
    match header.senderReference
    case None => Raised
    case Some(reference) =>
      var at := IndexOf(reference, OrganizationMarker);
      if at == -1 then Returned(None)
      else
        var bareId := BareId(reference);
        match FindReferenced(entries, reference, bareId, 0)
        case None => Returned(None)
        case Some(k) =>
          assert ResolvesTo(entries, reference, k);
          assert forall k' :: ResolvesTo(entries, reference, k') ==> k' == k;
          match entries[k].resource.content
          case Organization(ids) => Returned(FirstCcn(ids))
          case _ => Raised
  }

  /** Whatever the first qualifying identifier carries is what `FirstCcn` returns. */
  lemma {:induction false} FirstCcnYields(ids: seq<Identifier>, v: string)
    requires YieldsCcn(ids, v)
    ensures FirstCcn(ids) == Some(v)
  {
    var i :| 0 <= i < |ids| && Qualifies(ids[i]) && ids[i].value == Some(v)
             && forall j :: 0 <= j < i ==> !Qualifies(ids[j]);
    if i > 0 {
      assert ids[1..][i - 1] == ids[i];
      assert YieldsCcn(ids[1..], v) by {
        forall j | 0 <= j < i - 1 ensures !Qualifies(ids[1..][j]) {
          assert ids[1..][j] == ids[j + 1];
        }
      }
      FirstCcnYields(ids[1..], v);
    }
  }

  /** For a reference of the assumed form `Organization/<id>`, the bare id is `<id>`. */
  lemma BareIdOfPrefixed(id: string)
    ensures BareId(OrganizationMarker + id) == id
  {
  }

  /** A report whose sender reference `Organization/<id>` first refers to an
      Organization entry resolves to the CCN that entry's identifiers yield. */
  lemma GetCcnResolves(entries: seq<Entry>, id: string, k: nat, v: string)
    requires k < |entries| && entries[k].resource.content.Organization?
    requires RefersTo(entries[k], OrganizationMarker + id, id)
    requires forall j :: 0 <= j < k ==> !RefersTo(entries[j], OrganizationMarker + id, id)
    requires YieldsCcn(entries[k].resource.content.identifiers, v)
    ensures GetCcn(entries, Header(Some(OrganizationMarker + id))) == Returned(Some(v))
  {
    var reference := OrganizationMarker + id;
    assert OccursAt(reference, OrganizationMarker, 0) by {
      assert reference[..|OrganizationMarker|] == OrganizationMarker;
    }
    BareIdOfPrefixed(id);
    var found := FindReferenced(entries, reference, id, 0);
    assert found == Some(k);
    FirstCcnYields(entries[k].resource.content.identifiers, v);
  }
}

=== FILE: observations.dfy ===
/** `postBundle` and `getObservationEntries`: which observations are sent,
    in what shape, and when the transaction bundle is posted at all. */
module Observations {
  import opened Wrappers
  import opened Security
  import opened Report
  import opened Registry

  /** The subject reference of every outbound observation. */
  function SubjectFor(resourceId: string): string {
    "Patient/" + resourceId
  }

  /** Building the payload reads `code.coding[0]`, a dateTime `effective[x]`
      and a Quantity `value[x]`; otherwise it throws. */
  predicate Buildable(obs: Content) {
    obs.Observation? && |obs.codings| > 0 && obs.effective.EffectiveDateTime? && obs.value.QuantityValue?
  }

  /** The shape every emitted entry has: `POST Observation`, the patient as
      subject, the CCN's security tag, and one official source identifier. */
  predicate Shaped(b: BatchEntry, ccn: string, resourceId: string) {
    && b.request == Request("POST", "Observation")
    && b.resource.subject == SubjectFor(resourceId)
    && b.resource.meta == GetMeta(ccn)
    && |b.resource.identifiers| == 1
    && b.resource.identifiers[0].use == "official"
    && b.resource.identifiers[0].system == ResourceIdentifierSystem
  }

  /** Every entry of a batch has the emitted shape. */
  ghost predicate AllShaped(bs: seq<BatchEntry>, ccn: string, resourceId: string) {
    forall j :: 0 <= j < |bs| ==> Shaped(bs[j], ccn, resourceId)
  }

  /** The source identifier an emitted entry carries: the value of its first
      identifier under the URI system. Future runs deduplicate by it. */
  function SourceIdentifier(b: BatchEntry): Option<string> {
    var ids := b.resource.identifiers;
    if |ids| > 0 && ids[0].system == ResourceIdentifierSystem then Some(ids[0].value) else None
  }

  /** The batch entry for observation entry `e`. */
  function EntryFor(ccn: string, resourceId: string, e: Entry): (b: BatchEntry)
    requires e.fullUrl.Some? && Buildable(e.resource.content)
    ensures Shaped(b, ccn, resourceId)
    ensures SourceIdentifier(b) == e.fullUrl
    ensures var obs := e.resource.content;
            && b.resource.coding == obs.codings[0]
            && b.resource.effectiveDateTime == obs.effective.instant
            && b.resource.valueQuantity == obs.value.quantity
  {
    var obs := e.resource.content;
    BatchEntry(
      Request("POST", "Observation"),
      ObservationPayload(GetMeta(ccn), SubjectFor(resourceId), obs.effective.instant, obs.codings[0],
                         obs.value.quantity,
                         [OfficialIdentifier("official", ResourceIdentifierSystem, e.fullUrl.value)]))
  }

  /** What one iteration of the loop does with an entry. */
  datatype Verdict =
    | Skip   // `continue`: no fullUrl, or the registry already holds it
    | Keep   // an entry is appended to the batch
    | Abort  // an exception leaves the loop and `postBundle` posts nothing

  /** The dedup lookup is issued only for a known patient, and only for an
      entry with a fullUrl. */
  function VerdictOf(isNew: bool, lookup: string -> SearchReply, e: Entry): (v: Verdict)
    requires IsObservation(e)
    ensures e.fullUrl.None? ==> v == Skip
    ensures e.fullUrl.Some? && isNew ==> (v == Keep <==> Buildable(e.resource.content)) && v != Skip
    ensures e.fullUrl.Some? && !isNew ==> (v == Skip <==> ReportsExisting(lookup(e.fullUrl.value)))
    ensures e.fullUrl.Some? && !isNew && SearchThrows(lookup(e.fullUrl.value)) ==> v == Abort
    ensures (e.fullUrl.Some? && !isNew && !SearchThrows(lookup(e.fullUrl.value))
             && !ReportsExisting(lookup(e.fullUrl.value))) ==> (v == Keep <==> Buildable(e.resource.content))
    ensures v == Keep ==> e.fullUrl.Some? && Buildable(e.resource.content)
  {
    if e.fullUrl.None? then Skip
    else if !isNew && SearchThrows(lookup(e.fullUrl.value)) then Abort
    else if !isNew && ReportsExisting(lookup(e.fullUrl.value)) then Skip
    else if !Buildable(e.resource.content) then Abort
    else Keep
  }

  ghost predicate AllObservations(es: seq<Entry>) {
    forall i :: 0 <= i < |es| ==> IsObservation(es[i])
  }

  /** The fullUrls of `es`, in order. */
  function FullUrls(es: seq<Entry>): seq<string> {
    if |es| == 0 then []
    else (if es[0].fullUrl.Some? then [es[0].fullUrl.value] else []) + FullUrls(es[1..])
  }

  /** The identifiers the loop looks up for `es` when nothing aborts. */
  function Lookups(isNew: bool, es: seq<Entry>): seq<string> {
    if isNew then [] else FullUrls(es)
  }

  /** Every entry of `es` can be turned into a batch entry. */
  ghost predicate Sendable(es: seq<Entry>) {
    forall i :: 0 <= i < |es| ==> es[i].fullUrl.Some? && Buildable(es[i].resource.content)
  }

  /** The entries the loop keeps, in input order. */
  function Kept(isNew: bool, lookup: string -> SearchReply, es: seq<Entry>): (r: seq<Entry>)
    requires AllObservations(es)
    ensures |r| <= |es|
    ensures forall i :: 0 <= i < |r| ==> IsObservation(r[i]) && VerdictOf(isNew, lookup, r[i]) == Keep
    ensures Sendable(r)
  {
    if |es| == 0 then []
    else (if VerdictOf(isNew, lookup, es[0]) == Keep then [es[0]] else []) + Kept(isNew, lookup, es[1..])
  }

  /** Reference filter: the entries with a fullUrl the registry does not
      report as held, in input order. */
  function Unheld(lookup: string -> SearchReply, es: seq<Entry>): seq<Entry> {
    if |es| == 0 then []
    else
      var isUnheld := es[0].fullUrl.Some? && !ReportsExisting(lookup(es[0].fullUrl.value));
      (if isUnheld then [es[0]] else []) + Unheld(lookup, es[1..])
  }

  /** Every search of `es` answers without throwing, and every entry with a
      fullUrl can be built. */
  ghost predicate Answered(lookup: string -> SearchReply, es: seq<Entry>) {
    forall i :: 0 <= i < |es| && es[i].fullUrl.Some? ==>
      !SearchThrows(lookup(es[i].fullUrl.value)) && Buildable(es[i].resource.content)
  }

  /** For a known patient whose searches all answer, nothing aborts and the
      loop keeps exactly the entries the registry does not hold. */
  lemma {:induction false} KnownKeepsUnheld(lookup: string -> SearchReply, es: seq<Entry>)
    requires AllObservations(es) && Answered(lookup, es)
    ensures forall i :: 0 <= i < |es| ==> VerdictOf(false, lookup, es[i]) != Abort
    ensures Kept(false, lookup, es) == Unheld(lookup, es)
  {
    if |es| > 0 {
      assert forall i :: 1 <= i < |es| ==> es[i] == es[1..][i - 1];
      KnownKeepsUnheld(lookup, es[1..]);
    }
  }

  /** Every kept entry comes from the input. */
  lemma {:induction false} KeptFromInput(isNew: bool, lookup: string -> SearchReply, es: seq<Entry>)
    requires AllObservations(es)
    ensures forall e :: e in Kept(isNew, lookup, es) ==> e in es
  {
    if |es| > 0 {
      KeptFromInput(isNew, lookup, es[1..]);
    }
  }

  /** The batch built from kept entries. */
  function EntriesFor(ccn: string, resourceId: string, es: seq<Entry>): (r: seq<BatchEntry>)
    requires Sendable(es)
    ensures |r| == |es|
    ensures forall i :: 0 <= i < |r| ==> r[i] == EntryFor(ccn, resourceId, es[i])
    ensures AllShaped(r, ccn, resourceId)
  {
    seq(|es|, i requires 0 <= i < |es| => EntryFor(ccn, resourceId, es[i]))
  }

  /** The result of the loop: the identifiers it looked up, in order, and the
      batch, or `None` when an exception left the loop. */
  datatype Scan = Scan(queried: seq<string>, batch: Option<seq<BatchEntry>>)

  /** `k` is the first entry of `es` whose verdict is to abort. */
  ghost predicate FirstAbortAt(isNew: bool, lookup: string -> SearchReply, es: seq<Entry>, k: int)
    requires AllObservations(es)
  {
    && 0 <= k < |es| && VerdictOf(isNew, lookup, es[k]) == Abort
    && (forall j :: 0 <= j < k ==> VerdictOf(isNew, lookup, es[j]) != Abort)
  }

  /** When no entry of `es` aborts, `calls` are the searches of every
      looked-up entry, then the bundle of the kept entries when there are any. */
  ghost predicate SearchesThenBundle(ccn: string, resourceId: string, isNew: bool, lookup: string -> SearchReply,
                                     es: seq<Entry>, calls: seq<Call>)
    requires AllObservations(es)
  {
    (forall i :: 0 <= i < |es| ==> VerdictOf(isNew, lookup, es[i]) != Abort) ==>
      var kept := Kept(isNew, lookup, es);
      calls == SearchCalls(Lookups(isNew, es))
               + (if |kept| > 0 then [PostTransaction(EntriesFor(ccn, resourceId, kept))] else [])
  }

  /** When the scan of `es` aborts, `calls` are the searches up to and
      including the first aborting entry, and nothing else. */
  ghost predicate SearchesUntilAbort(isNew: bool, lookup: string -> SearchReply, es: seq<Entry>, calls: seq<Call>)
    requires AllObservations(es)
  {
    forall k :: FirstAbortAt(isNew, lookup, es, k) ==> calls == SearchCalls(Lookups(isNew, es[..k + 1]))
  }

  /** The scan of `es` aborts at `k`: the first aborting entry, having looked up `queried`. */
  ghost predicate AbortsAt(isNew: bool, lookup: string -> SearchReply, es: seq<Entry>, k: int, queried: seq<string>)
    requires AllObservations(es)
  {
    && 0 <= k < |es| && VerdictOf(isNew, lookup, es[k]) == Abort
    && (forall j :: 0 <= j < k ==> VerdictOf(isNew, lookup, es[j]) != Abort)
    && queried == Lookups(isNew, es[..k + 1])
  }

  /** What `ScanEntries` promises about a scan `r` of `es`. */
  ghost predicate ScanOf(ccn: string, resourceId: string, isNew: bool, lookup: string -> SearchReply,
                         es: seq<Entry>, r: Scan)
    requires AllObservations(es)
  {
    && (r.batch.Some? <==> forall i :: 0 <= i < |es| ==> VerdictOf(isNew, lookup, es[i]) != Abort)
    && (r.batch.Some? ==> r.queried == Lookups(isNew, es)
                          && r.batch.value == EntriesFor(ccn, resourceId, Kept(isNew, lookup, es)))
    && (r.batch.None? ==> exists k :: AbortsAt(isNew, lookup, es, k, r.queried))
  }

  /** The loop of `getObservationEntries` over the Observation entries. */
  function ScanEntries(ccn: string, resourceId: string, isNew: bool, lookup: string -> SearchReply,
                       es: seq<Entry>): (r: Scan)
    requires AllObservations(es)
    ensures r.batch.Some? <==> forall i :: 0 <= i < |es| ==> VerdictOf(isNew, lookup, es[i]) != Abort
    ensures r.batch.Some? ==> r.queried == Lookups(isNew, es)
                              && r.batch.value == EntriesFor(ccn, resourceId, Kept(isNew, lookup, es))
    ensures r.batch.None? ==> exists k :: AbortsAt(isNew, lookup, es, k, r.queried)
    ensures isNew ==> r.queried == []
  {
    if |es| == 0 then Scan([], Some([]))
    else
      var e := es[0];
      var here := Lookups(isNew, [e]);
      var v := VerdictOf(isNew, lookup, e);
      if v == Abort then
        ScanAbortsFirst(ccn, resourceId, isNew, lookup, es);
        Scan(here, None)
      else
        var rest := ScanEntries(ccn, resourceId, isNew, lookup, es[1..]);
        ScanStep(ccn, resourceId, isNew, lookup, es, rest);
        Scan(here + rest.queried,
             if rest.batch.Some? && v == Keep then Some([EntryFor(ccn, resourceId, e)] + rest.batch.value)
             else rest.batch)
  }

  /** The scan stops at a first entry that aborts, having looked it up. */
  lemma ScanAbortsFirst(ccn: string, resourceId: string, isNew: bool, lookup: string -> SearchReply,
                        es: seq<Entry>)
    requires |es| > 0 && AllObservations(es) && VerdictOf(isNew, lookup, es[0]) == Abort
    ensures ScanOf(ccn, resourceId, isNew, lookup, es, Scan(Lookups(isNew, [es[0]]), None))
  {
    assert es[..1] == [es[0]];
    assert AbortsAt(isNew, lookup, es, 0, Lookups(isNew, [es[0]]));
  }

  /** A first entry that does not abort extends the scan of the rest. */
  lemma ScanStep(ccn: string, resourceId: string, isNew: bool, lookup: string -> SearchReply,
                 es: seq<Entry>, rest: Scan)
    requires |es| > 0 && AllObservations(es) && VerdictOf(isNew, lookup, es[0]) != Abort
    requires ScanOf(ccn, resourceId, isNew, lookup, es[1..], rest)
    ensures var keep := VerdictOf(isNew, lookup, es[0]) == Keep;
            ScanOf(ccn, resourceId, isNew, lookup, es,
                   Scan(Lookups(isNew, [es[0]]) + rest.queried,
                        if rest.batch.Some? && keep then Some([EntryFor(ccn, resourceId, es[0])] + rest.batch.value)
                        else rest.batch))
  {
    if rest.batch.None? {
      RestAborts(ccn, resourceId, isNew, lookup, es, rest.queried);
    } else {
      RestCompletes(ccn, resourceId, isNew, lookup, es, rest.queried, rest.batch.value);
    }
  }

  lemma RestAborts(ccn: string, resourceId: string, isNew: bool, lookup: string -> SearchReply,
                   es: seq<Entry>, queried: seq<string>)
    requires |es| > 0 && AllObservations(es) && VerdictOf(isNew, lookup, es[0]) != Abort
    requires exists k :: AbortsAt(isNew, lookup, es[1..], k, queried)
    ensures ScanOf(ccn, resourceId, isNew, lookup, es, Scan(Lookups(isNew, [es[0]]) + queried, None))
  {
    var k :| AbortsAt(isNew, lookup, es[1..], k, queried);
    AbortShift(isNew, lookup, es, k, queried);
  }

  lemma RestCompletes(ccn: string, resourceId: string, isNew: bool, lookup: string -> SearchReply,
                      es: seq<Entry>, queried: seq<string>, batch: seq<BatchEntry>)
    requires |es| > 0 && AllObservations(es) && VerdictOf(isNew, lookup, es[0]) != Abort
    requires forall i :: 0 <= i < |es[1..]| ==> VerdictOf(isNew, lookup, es[1..][i]) != Abort
    requires queried == Lookups(isNew, es[1..])
    requires batch == EntriesFor(ccn, resourceId, Kept(isNew, lookup, es[1..]))
    ensures var keep := VerdictOf(isNew, lookup, es[0]) == Keep;
            ScanOf(ccn, resourceId, isNew, lookup, es,
                   Scan(Lookups(isNew, [es[0]]) + queried,
                        Some(if keep then [EntryFor(ccn, resourceId, es[0])] + batch else batch)))
  {
    forall i | 0 <= i < |es| ensures VerdictOf(isNew, lookup, es[i]) != Abort {
      if i > 0 { assert es[i] == es[1..][i - 1]; }
    }
    LookupsCons(isNew, es);
    var kept := Kept(isNew, lookup, es[1..]);
    if VerdictOf(isNew, lookup, es[0]) == Keep {
      assert Kept(isNew, lookup, es) == [es[0]] + kept;
      EntriesForCons(ccn, resourceId, es[0], kept);
    } else {
      assert Kept(isNew, lookup, es) == kept;
    }
  }

  lemma LookupsCons(isNew: bool, es: seq<Entry>)
    requires |es| > 0
    ensures Lookups(isNew, es) == Lookups(isNew, [es[0]]) + Lookups(isNew, es[1..])
  {
    assert [es[0]][1..] == [];
    assert FullUrls([es[0]]) == (if es[0].fullUrl.Some? then [es[0].fullUrl.value] else []) + FullUrls([]);
  }

  lemma EntriesForCons(ccn: string, resourceId: string, e: Entry, es: seq<Entry>)
    requires e.fullUrl.Some? && Buildable(e.resource.content)
    requires Sendable(es)
    ensures EntriesFor(ccn, resourceId, [e] + es) == [EntryFor(ccn, resourceId, e)] + EntriesFor(ccn, resourceId, es)
  {
  }

  /** An abort at `k` in `es[1..]` is an abort at `k + 1` in `es` when `es[0]` does not abort. */
  lemma AbortShift(isNew: bool, lookup: string -> SearchReply, es: seq<Entry>, k: int, queried: seq<string>)
    requires |es| > 0 && AllObservations(es) && VerdictOf(isNew, lookup, es[0]) != Abort
    requires AbortsAt(isNew, lookup, es[1..], k, queried)
    ensures AbortsAt(isNew, lookup, es, k + 1, Lookups(isNew, [es[0]]) + queried)
  {
    LookupsCons(isNew, es[..k + 2]);
    assert es[..k + 2][1..] == es[1..][..k + 1];
    forall j | 0 <= j < k + 1
      ensures VerdictOf(isNew, lookup, es[j]) != Abort
    {
      if j > 0 { assert es[j] == es[1..][j - 1]; }
    }
  }

  /** Filtering distributes over concatenation: the kept entries keep their
      input order. */
  lemma {:induction false} KeptAppend(isNew: bool, lookup: string -> SearchReply, a: seq<Entry>, b: seq<Entry>)
    requires AllObservations(a) && AllObservations(b)
    ensures AllObservations(a + b)
    ensures Kept(isNew, lookup, a + b) == Kept(isNew, lookup, a) + Kept(isNew, lookup, b)
  {
    if |a| == 0 {
      assert a + b == b;
    } else {
      assert (a + b)[1..] == a[1..] + b;
      KeptAppend(isNew, lookup, a[1..], b);
    }
  }

  /** Every entry the loop keeps is in the output (the converse is `Kept`'s contract). */
  lemma {:induction false} KeptComplete(isNew: bool, lookup: string -> SearchReply, es: seq<Entry>, i: nat)
    requires AllObservations(es) && i < |es| && VerdictOf(isNew, lookup, es[i]) == Keep
    ensures es[i] in Kept(isNew, lookup, es)
  {
    if i > 0 {
      assert es[i] == es[1..][i - 1];
      KeptComplete(isNew, lookup, es[1..], i - 1);
    }
  }

  /** For a new patient every entry with a fullUrl is kept, in order, and
      the scan completes without looking anything up. */
  lemma {:induction false} NewPatientKeepsAll(ccn: string, resourceId: string, lookup: string -> SearchReply,
                                              es: seq<Entry>)
    requires AllObservations(es)
    requires forall i :: 0 <= i < |es| && es[i].fullUrl.Some? ==> Buildable(es[i].resource.content)
    ensures forall i :: 0 <= i < |es| ==> VerdictOf(true, lookup, es[i]) != Abort
    ensures FullUrls(Kept(true, lookup, es)) == FullUrls(es)
    ensures ScanEntries(ccn, resourceId, true, lookup, es)
            == Scan([], Some(EntriesFor(ccn, resourceId, Kept(true, lookup, es))))
  {
    if |es| > 0 {
      assert forall i :: 1 <= i < |es| ==> es[i] == es[1..][i - 1];
      NewPatientKeepsAll(ccn, resourceId, lookup, es[1..]);
      var head := if es[0].fullUrl.Some? then [es[0]] else [];
      assert Kept(true, lookup, es) == head + Kept(true, lookup, es[1..]);
      FullUrlsAppend(head, Kept(true, lookup, es[1..]));
    }
  }

  lemma {:induction false} FullUrlsAppend(a: seq<Entry>, b: seq<Entry>)
    ensures FullUrls(a + b) == FullUrls(a) + FullUrls(b)
  {
    if |a| == 0 {
      assert a + b == b;
    } else {
      var h := if a[0].fullUrl.Some? then [a[0].fullUrl.value] else [];
      assert (a + b)[0] == a[0] && (a + b)[1..] == a[1..] + b;
      assert FullUrls(a + b) == h + FullUrls(a[1..] + b);
      FullUrlsAppend(a[1..], b);
      assert FullUrls(a) == h + FullUrls(a[1..]);
    }
  }

  /** The entries with a fullUrl that the registry reports as already held. */
  function CountExisting(lookup: string -> SearchReply, es: seq<Entry>): nat {
    if |es| == 0 then 0
    else (if es[0].fullUrl.Some? && ReportsExisting(lookup(es[0].fullUrl.value)) then 1 else 0)
         + CountExisting(lookup, es[1..])
  }

  /** Dedup correctness: of N entries with a fullUrl of which M are already
      held, a known patient's scan that does not abort keeps exactly N - M. */
  lemma {:induction false} DedupCount(lookup: string -> SearchReply, es: seq<Entry>)
    requires AllObservations(es)
    requires forall i :: 0 <= i < |es| ==> VerdictOf(false, lookup, es[i]) != Abort
    ensures |Kept(false, lookup, es)| == |FullUrls(es)| - CountExisting(lookup, es)
  {
    if |es| > 0 {
      assert forall i :: 1 <= i < |es| ==> es[i] == es[1..][i - 1];
      DedupCount(lookup, es[1..]);
    }
  }

  /** Resubmission: when the registry already holds every entry with a
      fullUrl, a known patient's scan keeps nothing and does not abort. */
  lemma {:induction false} AllHeldKeepsNothing(lookup: string -> SearchReply, es: seq<Entry>)
    requires AllObservations(es)
    requires forall i :: 0 <= i < |es| && es[i].fullUrl.Some? ==> ReportsExisting(lookup(es[i].fullUrl.value))
    ensures forall i :: 0 <= i < |es| ==> VerdictOf(false, lookup, es[i]) != Abort
    ensures Kept(false, lookup, es) == []
  {
    if |es| > 0 {
      assert forall i :: 1 <= i < |es| ==> es[i] == es[1..][i - 1];
      AllHeldKeepsNothing(lookup, es[1..]);
    }
  }

  /** One dedup search call per looked-up identifier, in order. */
  function SearchCalls(ids: seq<string>): (calls: seq<Call>)
    ensures |calls| == |ids|
    ensures forall i :: 0 <= i < |calls| ==> calls[i] == SearchObservation(ids[i])
  {
    seq(|ids|, i requires 0 <= i < |ids| => SearchObservation(ids[i]))
  }

  /** `postBundle(ccn, entries, resourceId, isPatientNew)`: the dedup searches
      of the loop, then the transaction bundle unless the loop threw or
      selected nothing. */
  function PostBundle(ccn: string, resourceId: string, isNew: bool, lookup: string -> SearchReply,
                      entries: seq<Entry>): (calls: seq<Call>)
    ensures isNew ==> forall i :: 0 <= i < |calls| ==> !calls[i].SearchObservation?
    ensures forall i :: 0 <= i < |calls| ==> calls[i].SearchObservation? || calls[i].PostTransaction?
    ensures forall i :: 0 <= i < |calls| && calls[i].PostTransaction? ==>
              && i == |calls| - 1
              && |calls[i].entries| > 0
              && AllShaped(calls[i].entries, ccn, resourceId)
    ensures var obs := ObservationsOf(entries);
            (|calls| > 0 && calls[|calls| - 1].PostTransaction?) <==>
              && (forall i :: 0 <= i < |obs| ==> VerdictOf(isNew, lookup, obs[i]) != Abort)
              && |Kept(isNew, lookup, obs)| > 0
    ensures var obs := ObservationsOf(entries);
            |calls| > 0 && calls[|calls| - 1].PostTransaction? ==>
              && calls[..|calls| - 1] == SearchCalls(Lookups(isNew, obs))
              && calls[|calls| - 1].entries == EntriesFor(ccn, resourceId, Kept(isNew, lookup, obs))
    ensures SearchesThenBundle(ccn, resourceId, isNew, lookup, ObservationsOf(entries), calls)
    ensures SearchesUntilAbort(isNew, lookup, ObservationsOf(entries), calls)
  {
    var obs := ObservationsOf(entries);
    var scan := ScanEntries(ccn, resourceId, isNew, lookup, obs);
    assert ScanOf(ccn, resourceId, isNew, lookup, obs, scan);
    ScanThenPost(ccn, resourceId, isNew, lookup, obs, scan);
    ScanPosts(ccn, resourceId, isNew, lookup, obs, scan);
    AbortedScanCalls(ccn, resourceId, isNew, lookup, obs, scan);
    CompletedScanCalls(ccn, resourceId, isNew, lookup, obs, scan);
    SearchCalls(scan.queried) + BundleCall(scan)
  }

  /** The bundle post a scan leads to: none when the loop threw or selected nothing. */
  function BundleCall(scan: Scan): seq<Call> {
    if scan.batch.Some? && |scan.batch.value| > 0 then [PostTransaction(scan.batch.value)] else []
  }

  /** The kinds and the shape of the calls issued after a scan. */
  lemma ScanThenPost(ccn: string, resourceId: string, isNew: bool, lookup: string -> SearchReply,
                     obs: seq<Entry>, scan: Scan)
    requires AllObservations(obs)
    requires ScanOf(ccn, resourceId, isNew, lookup, obs, scan)
    requires isNew ==> scan.queried == []
    ensures var calls := SearchCalls(scan.queried) + BundleCall(scan);
            && (isNew ==> forall i :: 0 <= i < |calls| ==> !calls[i].SearchObservation?)
            && (forall i :: 0 <= i < |calls| ==> calls[i].SearchObservation? || calls[i].PostTransaction?)
            && (forall i :: 0 <= i < |calls| && calls[i].PostTransaction? ==>
                  && i == |calls| - 1
                  && |calls[i].entries| > 0
                  && AllShaped(calls[i].entries, ccn, resourceId))
  {
    SearchesThenPost(scan.queried, BundleCall(scan));
  }

  /** When the calls issued after a scan end in a bundle post, and what precedes and fills it. */
  lemma ScanPosts(ccn: string, resourceId: string, isNew: bool, lookup: string -> SearchReply,
                  obs: seq<Entry>, scan: Scan)
    requires AllObservations(obs)
    requires ScanOf(ccn, resourceId, isNew, lookup, obs, scan)
    ensures var calls := SearchCalls(scan.queried) + BundleCall(scan);
            && ((|calls| > 0 && calls[|calls| - 1].PostTransaction?) <==>
                  && (forall i :: 0 <= i < |obs| ==> VerdictOf(isNew, lookup, obs[i]) != Abort)
                  && |Kept(isNew, lookup, obs)| > 0)
            && (|calls| > 0 && calls[|calls| - 1].PostTransaction? ==>
                  && calls[..|calls| - 1] == SearchCalls(Lookups(isNew, obs))
                  && calls[|calls| - 1].entries == EntriesFor(ccn, resourceId, Kept(isNew, lookup, obs)))
  {
    SearchesThenPost(scan.queried, BundleCall(scan));
  }

  /** A completed scan leads to all its searches, then the bundle of the
      kept entries when there are any. */
  lemma CompletedScanCalls(ccn: string, resourceId: string, isNew: bool, lookup: string -> SearchReply,
                           obs: seq<Entry>, scan: Scan)
    requires AllObservations(obs)
    requires ScanOf(ccn, resourceId, isNew, lookup, obs, scan)
    ensures SearchesThenBundle(ccn, resourceId, isNew, lookup, obs, SearchCalls(scan.queried) + BundleCall(scan))
  {
  }

  /** An aborted scan leads to the searches up to and including the first
      aborting entry, and to nothing else. */
  lemma AbortedScanCalls(ccn: string, resourceId: string, isNew: bool, lookup: string -> SearchReply,
                         obs: seq<Entry>, scan: Scan)
    requires AllObservations(obs)
    requires ScanOf(ccn, resourceId, isNew, lookup, obs, scan)
    ensures SearchesUntilAbort(isNew, lookup, obs, SearchCalls(scan.queried) + BundleCall(scan))
  {
    if scan.batch.None? {
      var k :| AbortsAt(isNew, lookup, obs, k, scan.queried);
      assert SearchCalls(scan.queried) + BundleCall(scan) == SearchCalls(scan.queried);
      AbortedCalls(isNew, lookup, obs, k, scan.queried);
    } else {
      NeverAborts(isNew, lookup, obs, SearchCalls(scan.queried) + BundleCall(scan));
    }
  }

  /** The searches of a scan that aborts at `k` are the searches up to the first aborting entry. */
  lemma AbortedCalls(isNew: bool, lookup: string -> SearchReply, obs: seq<Entry>, k: int, queried: seq<string>)
    requires AllObservations(obs)
    requires AbortsAt(isNew, lookup, obs, k, queried)
    ensures SearchesUntilAbort(isNew, lookup, obs, SearchCalls(queried))
  {
    forall k' | FirstAbortAt(isNew, lookup, obs, k')
      ensures SearchCalls(queried) == SearchCalls(Lookups(isNew, obs[..k' + 1]))
    {
      FirstAbortUnique(isNew, lookup, obs, k, k');
    }
  }

  /** With no aborting entry there is no first one, whatever the calls. */
  lemma NeverAborts(isNew: bool, lookup: string -> SearchReply, obs: seq<Entry>, calls: seq<Call>)
    requires AllObservations(obs)
    requires forall i :: 0 <= i < |obs| ==> VerdictOf(isNew, lookup, obs[i]) != Abort
    ensures SearchesUntilAbort(isNew, lookup, obs, calls)
  {
  }

  /** There is only one first aborting entry. */
  lemma FirstAbortUnique(isNew: bool, lookup: string -> SearchReply, es: seq<Entry>, k: int, k': int)
    requires AllObservations(es)
    requires FirstAbortAt(isNew, lookup, es, k) && FirstAbortAt(isNew, lookup, es, k')
    ensures k == k'
  {
  }

  /** The dedup searches followed by at most one bundle post. */
  lemma SearchesThenPost(queried: seq<string>, post: seq<Call>)
    requires |post| <= 1 && forall i :: 0 <= i < |post| ==> post[i].PostTransaction?
    ensures var calls := SearchCalls(queried) + post;
            && (forall i :: 0 <= i < |calls| ==> calls[i].SearchObservation? || calls[i].PostTransaction?)
            && (forall i :: 0 <= i < |calls| && calls[i].PostTransaction? ==> i == |calls| - 1 && calls[i] == post[0])
            && ((|calls| > 0 && calls[|calls| - 1].PostTransaction?) <==> |post| == 1)
            && (|post| == 1 ==> calls[..|calls| - 1] == SearchCalls(queried))
  {
    var calls := SearchCalls(queried) + post;
    assert forall i :: 0 <= i < |queried| ==> calls[i] == SearchObservation(queried[i]);
    assert |post| == 1 ==> calls[..|calls| - 1] == SearchCalls(queried);
  }

  /** For a known patient whose searches all answer, `postBundle` searches
      every fullUrl and posts a bundle exactly when some entry is not held:
      the payloads of exactly those entries, in order. */
  lemma KnownPatientPostsUnheld(ccn: string, resourceId: string, lookup: string -> SearchReply,
                                entries: seq<Entry>)
    requires Answered(lookup, ObservationsOf(entries))
    ensures Sendable(Unheld(lookup, ObservationsOf(entries)))
    ensures var calls := PostBundle(ccn, resourceId, false, lookup, entries);
            var unheld := Unheld(lookup, ObservationsOf(entries));
            && ((|calls| > 0 && calls[|calls| - 1].PostTransaction?) <==> |unheld| > 0)
            && calls == SearchCalls(FullUrls(ObservationsOf(entries)))
                        + (if |unheld| > 0 then [PostTransaction(EntriesFor(ccn, resourceId, unheld))] else [])
  {
    KnownKeepsUnheld(lookup, ObservationsOf(entries));
  }

  /** The bundle a sequence of calls ends by posting, if it ends by posting one. */
  function Posted(calls: seq<Call>): seq<BatchEntry> {
    if |calls| > 0 && calls[|calls| - 1].PostTransaction? then calls[|calls| - 1].entries else []
  }

  /** Every entry of `obs` with a fullUrl is reported as held, or is the
      source of an entry of `posted`. */
  ghost predicate Covered(obs: seq<Entry>, lookup: string -> SearchReply, posted: seq<BatchEntry>) {
    forall m :: 0 <= m < |obs| && obs[m].fullUrl.Some? ==>
      || ReportsExisting(lookup(obs[m].fullUrl.value))
      || exists p :: 0 <= p < |posted| && SourceIdentifier(posted[p]) == obs[m].fullUrl
  }

  /** When `postBundle` posts, every Observation entry with a fullUrl either
      went into the bundle, under that fullUrl, or was reported as held. */
  lemma PostedCoversEntries(ccn: string, resourceId: string, isNew: bool, lookup: string -> SearchReply,
                            entries: seq<Entry>)
    requires var calls := PostBundle(ccn, resourceId, isNew, lookup, entries);
             |calls| > 0 && calls[|calls| - 1].PostTransaction?
    ensures Covered(ObservationsOf(entries), lookup, Posted(PostBundle(ccn, resourceId, isNew, lookup, entries)))
  {
    var calls := PostBundle(ccn, resourceId, isNew, lookup, entries);
    var obs := ObservationsOf(entries);
    assert Posted(calls) == EntriesFor(ccn, resourceId, Kept(isNew, lookup, obs));
    KeptCovered(ccn, resourceId, isNew, lookup, obs);
  }

  /** A completed scan covers its input: what it does not keep is held or has no fullUrl. */
  lemma KeptCovered(ccn: string, resourceId: string, isNew: bool, lookup: string -> SearchReply, obs: seq<Entry>)
    requires AllObservations(obs)
    requires forall i :: 0 <= i < |obs| ==> VerdictOf(isNew, lookup, obs[i]) != Abort
    ensures Covered(obs, lookup, EntriesFor(ccn, resourceId, Kept(isNew, lookup, obs)))
  {
    var kept := Kept(isNew, lookup, obs);
    var posted := EntriesFor(ccn, resourceId, kept);
    forall m | 0 <= m < |obs| && obs[m].fullUrl.Some? && !ReportsExisting(lookup(obs[m].fullUrl.value))
      ensures exists p :: 0 <= p < |posted| && SourceIdentifier(posted[p]) == obs[m].fullUrl
    {
      assert VerdictOf(isNew, lookup, obs[m]) == Keep;
      KeptComplete(isNew, lookup, obs, m);
      var p :| 0 <= p < |kept| && kept[p] == obs[m];
      assert posted[p] == EntryFor(ccn, resourceId, obs[m]);
    }
  }

  /** Every entry of `obs` with a fullUrl is reported as held. */
  ghost predicate AllHeld(obs: seq<Entry>, lookup: string -> SearchReply) {
    forall m :: 0 <= m < |obs| && obs[m].fullUrl.Some? ==> ReportsExisting(lookup(obs[m].fullUrl.value))
  }

  /** A registry that keeps what it held and now holds what was posted holds
      every covered entry. */
  lemma CoveredThenHeld(obs: seq<Entry>, before: string -> SearchReply, posted: seq<BatchEntry>,
                        after: string -> SearchReply)
    requires Covered(obs, before, posted)
    requires forall b :: b in posted && SourceIdentifier(b).Some? ==> ReportsExisting(after(SourceIdentifier(b).value))
    requires forall url :: ReportsExisting(before(url)) ==> ReportsExisting(after(url))
    ensures AllHeld(obs, after)
  {
    forall m | 0 <= m < |obs| && obs[m].fullUrl.Some?
      ensures ReportsExisting(after(obs[m].fullUrl.value))
    {
      if !ReportsExisting(before(obs[m].fullUrl.value)) {
        var p :| 0 <= p < |posted| && SourceIdentifier(posted[p]) == obs[m].fullUrl;
        assert posted[p] in posted;
      }
    }
  }

  /** For a known patient whose observations the registry all holds,
      `postBundle` posts no bundle. */
  lemma HeldPostsNothing(ccn: string, resourceId: string, lookup: string -> SearchReply, entries: seq<Entry>)
    requires AllHeld(ObservationsOf(entries), lookup)
    ensures var calls := PostBundle(ccn, resourceId, false, lookup, entries);
            forall i :: 0 <= i < |calls| ==> !calls[i].PostTransaction?
  {
    AllHeldKeepsNothing(lookup, ObservationsOf(entries));
  }
}

=== FILE: patients.dfy ===
/** The patient side of the protocol: `getCrid`, `checkIfPatientExists` and
    `postPatient`, each over the reply its remote call produced. */
module Patients {
  import opened Wrappers
  import opened Text
  import opened Security
  import opened Report
  import opened Registry

  /** The marker `postPatient` looks for in the `Location` header. */
  const PatientMarker: string := "Patient/"

  /** The `PUT CRID` body for `patient`, or `None` when building it throws:
      no name, a first name without a given part, or no birth date or gender.
      When it throws, no request is sent. */
  function CridRequestFor(ccn: string, patient: Content): (r: Option<CridRequest>)
    requires patient.Patient?
    ensures r.Some? <==> |patient.names| > 0 && |patient.names[0].given| > 0
                         && patient.birthDate.Some? && patient.gender.Some?
    ensures r.Some? ==> r.value.ccn == ccn && r.value.firstName == patient.names[0].given[0]
                        && r.value.lastName == patient.names[0].family
                        && r.value.birthDate == patient.birthDate.value
                        && r.value.gender == GenderDisplay(patient.gender.value)
  {
    if |patient.names| == 0 || |patient.names[0].given| == 0
       || patient.birthDate.None? || patient.gender.None?
    then None
    else
      var name := patient.names[0];
      Some(CridRequest(ccn, name.given[0], name.family, patient.birthDate.value,
                       GenderDisplay(patient.gender.value)))
  }

  /** `getCrid`'s reading of the reply: the crid of the FIRST perfect match,
      however many there are; nothing on a failure, an empty array, or a
      first match without a numeric crid. */
  function GetCrid(reply: CridReply): (r: Option<string>)
    ensures r.Some? <==> reply.PerfectMatches? && |reply.crids| > 0 && reply.crids[0].Some?
    ensures r.Some? ==> r == reply.crids[0]
  {
    match reply
    case CridFailed => None
    case PerfectMatches(crids) => if |crids| == 0 then None else crids[0]
  }

  /** A second perfect match does not make the answer ambiguous: the first wins. */
  lemma FirstPerfectMatchWins(first: string, others: seq<Option<string>>)
    ensures GetCrid(PerfectMatches([Some(first)] + others)) == Some(first)
  {
  }

  /** `checkIfPatientExists`'s reading of the search reply: the id of the
      first hit when the search reports one; every failure reads as absent. */
  function ExistingPatientId(reply: SearchReply): (r: Option<string>)
    ensures r.Some? <==> ReportsExisting(reply) && reply.body.value.firstId.Some?
    ensures r.Some? ==> r == reply.body.value.firstId
    ensures SearchThrows(reply) ==> r.None?
  {
    if ReportsExisting(reply) then reply.body.value.firstId else None
  }

  /** The `POST Patient` body: the CCN's security tag, an empty narrative
      and the CRID as the one official identifier. */
  function PatientPayloadFor(ccn: string, crid: string): (p: PatientPayload)
    ensures p.meta == GetMeta(ccn) && p.textStatus == "empty"
    ensures p.identifiers == [OfficialIdentifier("official", CridSystem, crid)]
  {
    PatientPayload(GetMeta(ccn), "empty", [OfficialIdentifier("official", CridSystem, crid)])
  }

  /** A record matches the existence check's query for (`ccn`, `crid`): it
      carries the CCN's security tag and an identifier whose value is `crid`. */
  predicate MatchesPatientQuery(p: PatientPayload, ccn: string, crid: string) {
    && (exists i :: 0 <= i < |p.meta.security| && TagCcn(p.meta.security[i]) == Some(ccn))
    && (exists i :: 0 <= i < |p.identifiers| && p.identifiers[i].value == crid)
  }

  /** The record `postPatient` creates is one the existence check for the same
      CCN and CRID finds, and no other CCN's check finds it. */
  lemma CreatedPatientIsFound(ccn: string, crid: string, other: string)
    ensures MatchesPatientQuery(PatientPayloadFor(ccn, crid), ccn, crid)
    ensures other != ccn ==> !MatchesPatientQuery(PatientPayloadFor(ccn, crid), other, crid)
  {
    var p := PatientPayloadFor(ccn, crid);
    assert TagCcn(p.meta.security[0]) == Some(ccn);
    assert p.identifiers[0].value == crid;
  }

  /** The resource id `postPatient` reads from the create reply: the text
      after the first `Patient/` of the `Location` header, but only for
      status 200 or 201 and only when that occurrence is not at index 0. */
  function ParseLocation(reply: CreateReply): (r: Option<string>)
    ensures r.Some? <==> && reply.CreateResponse? && (reply.status == 200 || reply.status == 201)
                         && reply.location.Some? && IndexOf(reply.location.value, PatientMarker) > 0
    ensures r.Some? ==>
              var loc := reply.location.value;
              exists k :: 0 < k && OccursAt(loc, PatientMarker, k)
                          && (forall j :: 0 <= j < k ==> !OccursAt(loc, PatientMarker, j))
                          && r.value == loc[k + |PatientMarker|..]
  {
    match reply
    case CreateFailed => None
    case CreateResponse(status, location) =>
      if (status == 200 || status == 201) && location.Some? then
        var index := IndexOf(location.value, PatientMarker);
        if index > 0 then Some(location.value[index + |PatientMarker|..]) else None
      else None
  }

  /** Round trip: a created reply whose `Location` is `<prefix>Patient/<id>`,
      for any non-empty prefix without a `Patient/` of its own, yields `<id>`. */
  lemma ParseLocationRoundTrip(status: int, prefix: string, id: string)
    requires status == 200 || status == 201
    requires |prefix| > 0 && !Contains(prefix, PatientMarker)
    ensures ParseLocation(CreateResponse(status, Some(prefix + PatientMarker + id))) == Some(id)
  {
    var loc := prefix + PatientMarker + id;
    assert forall j :: 0 <= j < |PatientMarker| - 1 ==> PatientMarker[j] != '/';
    IndexOfAfterPrefix(prefix, PatientMarker, id);
    assert loc[|prefix| + |PatientMarker|..] == id;
  }

  /** A relative `Location` (`Patient/<id>`, the marker at index 0) yields
      nothing, as does any status other than 200 and 201. */
  lemma ParseLocationRejects(status: int, id: string, location: string)
    ensures ParseLocation(CreateResponse(status, Some(PatientMarker + id))) == None
    ensures status != 200 && status != 201 ==> ParseLocation(CreateResponse(status, Some(location))) == None
  {
    var loc := PatientMarker + id;
    assert OccursAt(loc, PatientMarker, 0) by {
      assert loc[..|PatientMarker|] == PatientMarker;
    }
  }
}

=== FILE: pipeline.dfy ===
/** `convert`: the whole submission, as the sequence of remote calls it
    issues given the registry's replies. */
module Pipeline {
  import opened Wrappers
  import opened Security
  import opened Report
  import opened Registry
  import opened CcnResolver
  import opened Patients
  import opened Observations

  /** The registry's answers: one per remote call whose answer is read. The
      dedup searches are answered per identifier; the reply to the bundle
      post is never read. */
  datatype Oracles = Oracles(
    crid: CridReply,
    patientSearch: SearchReply,
    create: CreateReply,
    observationSearch: string -> SearchReply)

  /** What one `convert` call does: the remote calls in order, and whether an
      exception escaped it. */
  datatype Run = Run(calls: seq<Call>, raised: bool)

  /** What `getCrid` does: the CRID request it sends, if any, and the crid it returns. */
  datatype CridOutcome = CridOutcome(calls: seq<Call>, crid: Option<string>)

  /** `getCrid` as a whole: the request is sent only for a patient with a
      given name, a birth date and a gender, and a crid is known only when
      the request was sent and its first perfect match carries one. */
  function ResolveCrid(ccn: string, patient: Content, reply: CridReply): (r: CridOutcome)
    requires patient.Patient?
    ensures |r.calls| <= 1
    ensures r.calls != [] <==> |patient.names| > 0 && |patient.names[0].given| > 0
                               && patient.birthDate.Some? && patient.gender.Some?
    ensures forall i :: 0 <= i < |r.calls| ==> r.calls[i] == PutCrid(CridRequestFor(ccn, patient).value)
    ensures r.crid.Some? <==> r.calls != [] && reply.PerfectMatches? && |reply.crids| > 0 && reply.crids[0].Some?
    ensures r.crid.Some? ==> r.crid == reply.crids[0]
  {
    match CridRequestFor(ccn, patient)
    case None => CridOutcome([], None)
    case Some(request) => CridOutcome([PutCrid(request)], GetCrid(reply))
  }

  /** The order calls come in: CRID, patient search, create, dedup searches, bundle. */
  function Phase(c: Call): nat {
    match c
    case PutCrid(_) => 0
    case SearchPatient(_, _) => 1
    case CreatePatient(_) => 2
    case SearchObservation(_) => 3
    case PostTransaction(_) => 4
  }

  /** Calls come in phase order, every phase but the dedup searches at most
      once, and a non-empty run starts with the CRID request. */
  ghost predicate WellOrdered(calls: seq<Call>) {
    && (forall i, j :: 0 <= i < j < |calls| ==> Phase(calls[i]) <= Phase(calls[j]))
    && (forall i, j :: 0 <= i < j < |calls| && Phase(calls[i]) == Phase(calls[j]) ==> calls[i].SearchObservation?)
    && (|calls| > 0 ==> calls[0].PutCrid?)
  }

  predicate Creates(calls: seq<Call>) {
    exists i :: 0 <= i < |calls| && calls[i].CreatePatient?
  }

  /** The calls after a crid is known: the existence check, the create
      when the check found nothing, and the observations when a resource id
      is known; `isPatientNew` is true exactly when the create was issued. */
  function Submit(ccn: string, crid: string, content: seq<Entry>, o: Oracles): (calls: seq<Call>)
    ensures |calls| > 0 && calls[0] == SearchPatient(ccn, crid)
    ensures (|calls| > 1 && calls[1].CreatePatient?) <==> ExistingPatientId(o.patientSearch).None?
    ensures ExistingPatientId(o.patientSearch).None? ==> calls[1] == CreatePatient(PatientPayloadFor(ccn, crid))
    ensures forall i :: 1 <= i < |calls| ==> 2 <= Phase(calls[i])
    ensures forall i, j :: 0 <= i < j < |calls| ==> Phase(calls[i]) <= Phase(calls[j])
    ensures forall i :: 2 <= i < |calls| ==> !calls[i].CreatePatient?
    ensures forall i :: 0 <= i < |calls| && calls[i].PostTransaction? ==> i == |calls| - 1
    ensures ExistingPatientId(o.patientSearch).None? ==> forall i :: 0 <= i < |calls| ==> !calls[i].SearchObservation?
    ensures var resourceId := ExistingPatientId(o.patientSearch);
            var rid := if resourceId.Some? then resourceId else ParseLocation(o.create);
            && (rid.None? ==> |calls| <= 2)
            && forall i :: 0 <= i < |calls| && calls[i].PostTransaction? ==>
                 rid.Some? && AllShaped(calls[i].entries, ccn, rid.value)
  {
    var existing := ExistingPatientId(o.patientSearch);
    var isNew := existing.None?;
    var createCalls := if isNew then [CreatePatient(PatientPayloadFor(ccn, crid))] else [];
    var resourceId := if isNew then ParseLocation(o.create) else existing;
    var bundleCalls := if resourceId.Some?
                       then PostBundle(ccn, resourceId.value, isNew, o.observationSearch, content)
                       else [];
    var head := [SearchPatient(ccn, crid)] + createCalls;
    SubmitOrdered(head, bundleCalls);
    head + bundleCalls
  }

  lemma SubmitOrdered(head: seq<Call>, tail: seq<Call>)
    requires 1 <= |head| <= 2 && head[0].SearchPatient? && (|head| == 2 ==> head[1].CreatePatient?)
    requires forall i :: 0 <= i < |tail| ==> tail[i].SearchObservation? || tail[i].PostTransaction?
    requires forall i :: 0 <= i < |tail| && tail[i].PostTransaction? ==> i == |tail| - 1
    ensures var calls := head + tail;
            && calls[0] == head[0]
            && ((|calls| > 1 && calls[1].CreatePatient?) <==> |head| == 2)
            && (forall i :: 1 <= i < |calls| ==> 2 <= Phase(calls[i]))
            && (forall i, j :: 0 <= i < j < |calls| ==> Phase(calls[i]) <= Phase(calls[j]))
            && (forall i :: 2 <= i < |calls| ==> !calls[i].CreatePatient?)
            && (forall i :: 0 <= i < |calls| && calls[i].PostTransaction? ==> i == |calls| - 1)
  {
    var calls := head + tail;
    assert forall i :: |head| <= i < |calls| ==> calls[i] == tail[i - |head|];
  }

  /** `convert(report, header, authToken)`. */
  function Convert(report: seq<Entry>, header: Header, o: Oracles): (run: Run)
    ensures run.raised <==> |report| > 0 && (|report| < 2 || !report[1].resource.content.Bundle?
                                             || GetCcn(report, header).Raised?)
    ensures run.raised ==> run.calls == []
    ensures run.calls != [] ==>
              && |report| >= 2 && report[1].resource.content.Bundle?
              && FirstPatient(report[1].resource.content.entries).Some?
              && GetCcn(report, header).Returned? && GetCcn(report, header).value.Some?
    ensures WellOrdered(run.calls)
  {
    if |report| == 0 then Run([], false)
    else if |report| < 2 || !report[1].resource.content.Bundle? then Run([], true)
    else
      var content := report[1].resource.content.entries;
      var patientEntry := FirstPatient(content);
      match GetCcn(report, header)
      case Raised => Run([], true)
      case Returned(ccn) =>
        if patientEntry.None? || ccn.None? then Run([], false)
        else
          var CridOutcome(cridCalls, crid) := ResolveCrid(ccn.value, patientEntry.value.resource.content, o.crid);
          if crid.None? then Run(cridCalls, false)
          else
            var calls := cridCalls + Submit(ccn.value, crid.value, content, o);
            assert WellOrdered(calls) by { AfterCridOrdered(cridCalls, Submit(ccn.value, crid.value, content, o)); }
            Run(calls, false)
  }

  lemma AfterCridOrdered(a: seq<Call>, b: seq<Call>)
    requires |a| == 1 && a[0].PutCrid?
    requires |b| > 0 && b[0].SearchPatient?
    requires forall i :: 1 <= i < |b| ==> 2 <= Phase(b[i])
    requires forall i, j :: 0 <= i < j < |b| ==> Phase(b[i]) <= Phase(b[j])
    requires forall i :: 2 <= i < |b| ==> !b[i].CreatePatient?
    requires forall i :: 0 <= i < |b| && b[i].PostTransaction? ==> i == |b| - 1
    ensures WellOrdered(a + b)
  {
  }

  /** A run that got past the CRID request: how it was reached, and that the
      rest of it is `Submit`. */
  lemma ConvertReaches(report: seq<Entry>, header: Header, o: Oracles, i: nat) returns (ccn: string, crid: string)
    requires i < |Convert(report, header, o).calls| && 1 <= Phase(Convert(report, header, o).calls[i])
    ensures |report| >= 2 && report[1].resource.content.Bundle?
    ensures GetCcn(report, header) == Returned(Some(ccn))
    ensures FirstPatient(report[1].resource.content.entries).Some?
    ensures var patient := FirstPatient(report[1].resource.content.entries).value.resource.content;
            && CridRequestFor(ccn, patient).Some?
            && GetCrid(o.crid) == Some(crid)
            && Convert(report, header, o).calls
               == [PutCrid(CridRequestFor(ccn, patient).value)] + Submit(ccn, crid, report[1].resource.content.entries, o)
  {
    ccn := GetCcn(report, header).value.value;
    var patient := FirstPatient(report[1].resource.content.entries).value.resource.content;
    crid := ResolveCrid(ccn, patient, o.crid).crid.value;
  }

  /** A report that resolves a CCN and a patient sends the CRID request when
      one can be built, and goes on with `Submit` exactly when the reply
      yields a crid; no exception escapes. */
  lemma ConvertComposes(report: seq<Entry>, header: Header, o: Oracles, content: seq<Entry>,
                         ccn: string, patient: Entry)
    requires |report| >= 2 && report[1].resource.content == Bundle(content)
    requires GetCcn(report, header) == Returned(Some(ccn))
    requires FirstPatient(content) == Some(patient)
    ensures patient.resource.content.Patient?
    ensures var r := ResolveCrid(ccn, patient.resource.content, o.crid);
            Convert(report, header, o)
            == Run(r.calls + (if r.crid.Some? then Submit(ccn, r.crid.value, content, o) else []), false)
  {
  }

  /** Without a crid the run stops after the CRID request. */
  lemma NoCridStops(report: seq<Entry>, header: Header, o: Oracles)
    requires GetCrid(o.crid).None?
    ensures |Convert(report, header, o).calls| <= 1
  {
    if |report| >= 2 && report[1].resource.content.Bundle? {
      var content := report[1].resource.content.entries;
      var ccn := GetCcn(report, header);
      if ccn.Returned? && ccn.value.Some? && FirstPatient(content).Some? {
        ConvertComposes(report, header, o, content, ccn.value.value, FirstPatient(content).value);
      }
    }
  }

  /** At-most-once create: the patient is created at most once, only after
      the existence check, and exactly when that check found nothing. */
  lemma CreateExactlyWhenAbsent(report: seq<Entry>, header: Header, o: Oracles)
    ensures var calls := Convert(report, header, o).calls;
            && (forall i, j :: 0 <= i < j < |calls| && calls[i].CreatePatient? ==> !calls[j].CreatePatient?)
            && (forall i :: 0 <= i < |calls| && calls[i].CreatePatient? ==> i == 2 && calls[1].SearchPatient?)
            && (Creates(calls) <==> |calls| > 1 && ExistingPatientId(o.patientSearch).None?)
  {
    var calls := Convert(report, header, o).calls;
    if |calls| > 1 {
      assert Phase(calls[1]) >= 1;
      var ccn, crid := ConvertReaches(report, header, o, 1);
      var sub := Submit(ccn, crid, report[1].resource.content.entries, o);
      assert calls == [calls[0]] + sub && calls[0].PutCrid?;
      forall i | 0 <= i < |calls| && calls[i].CreatePatient? ensures i == 2 {
        assert sub[i - 1] == calls[i];
      }
      if ExistingPatientId(o.patientSearch).None? {
        assert calls[2] == sub[1];
      }
    } else if |calls| == 1 {
      assert calls[0].PutCrid?;
    }
  }

  /** `isPatientNew`: after a create no dedup search is issued; the bundle
      names the created patient, or the one the check found. */
  lemma NewPatientIsNotDeduplicated(report: seq<Entry>, header: Header, o: Oracles)
    ensures var calls := Convert(report, header, o).calls;
            Creates(calls) ==> forall i :: 0 <= i < |calls| ==> !calls[i].SearchObservation?
    ensures var calls := Convert(report, header, o).calls;
            forall i :: 0 <= i < |calls| && calls[i].PostTransaction? ==>
              var existing := ExistingPatientId(o.patientSearch);
              var rid := if existing.Some? then existing else ParseLocation(o.create);
              && rid.Some?
              && (existing.None? ==> Creates(calls))
              && forall j :: 0 <= j < |calls[i].entries| ==>
                   calls[i].entries[j].resource.subject == SubjectFor(rid.value)
  {
    var calls := Convert(report, header, o).calls;
    if |calls| > 1 {
      assert Phase(calls[1]) >= 1;
      var ccn, crid := ConvertReaches(report, header, o, 1);
      CreateExactlyWhenAbsent(report, header, o);
    }
  }

  /** Every call goes below the client's normalised base URL. */
  lemma TargetsUnderBase(url: string, report: seq<Entry>, header: Header, o: Oracles)
    ensures var client := NewClient(url);
            var calls := Convert(report, header, o).calls;
            forall i :: 0 <= i < |calls| ==>
              var t := Target(client, calls[i]);
              |url| < |t| && t[..|url|] == url
  {
    var client := NewClient(url);
    var calls := Convert(report, header, o).calls;
    forall i | 0 <= i < |calls|
      ensures var t := Target(client, calls[i]); |url| < |t| && t[..|url|] == url
    {
      var t := Target(client, calls[i]);
      assert t[..|url|] == t[..|client.baseUrl|][..|url|];
    }
  }

  /** A `Submit` that ends by posting posts what `postBundle` posts for the
      resource id it settled on. */
  lemma SubmitPosted(ccn: string, crid: string, content: seq<Entry>, o: Oracles)
      returns (isNew: bool, resourceId: string)
    requires var calls := Submit(ccn, crid, content, o);
             calls[|calls| - 1].PostTransaction?
    ensures isNew <==> ExistingPatientId(o.patientSearch).None?
    ensures var bundle := PostBundle(ccn, resourceId, isNew, o.observationSearch, content);
            && |bundle| > 0 && bundle[|bundle| - 1].PostTransaction?
            && Posted(Submit(ccn, crid, content, o)) == Posted(bundle)
  {
    var existing := ExistingPatientId(o.patientSearch);
    isNew := existing.None?;
    var head := [SearchPatient(ccn, crid)] + (if isNew then [CreatePatient(PatientPayloadFor(ccn, crid))] else []);
    var rid := if isNew then ParseLocation(o.create) else existing;
    var calls := Submit(ccn, crid, content, o);
    assert calls[|calls| - 1].PostTransaction?;
    assert rid.Some?;
    resourceId := rid.value;
    var bundle := PostBundle(ccn, resourceId, isNew, o.observationSearch, content);
    assert calls == head + bundle;
    assert |bundle| > 0;
    PostedSuffix(head, bundle);
  }

  /** After a run that posted its bundle, the observation entries of the
      report each either went into that bundle or were reported as held. */
  lemma PostedRunCoversReport(report: seq<Entry>, header: Header, o: Oracles) returns (obs: seq<Entry>)
    requires var calls := Convert(report, header, o).calls;
             |calls| > 0 && calls[|calls| - 1].PostTransaction?
    ensures |report| >= 2 && report[1].resource.content.Bundle?
    ensures obs == ObservationsOf(report[1].resource.content.entries)
    ensures Covered(obs, o.observationSearch, Posted(Convert(report, header, o).calls))
  {
    var ccn, rid, isNew := ConvertPosted(report, header, o);
    obs := ObservationsOf(report[1].resource.content.entries);
    PostedCoversEntries(ccn, rid, isNew, o.observationSearch, report[1].resource.content.entries);
  }

  /** A run that ends by posting posts what `postBundle` posts for the
      report's content, under the CCN and resource id the run settled on. */
  lemma ConvertPosted(report: seq<Entry>, header: Header, o: Oracles)
      returns (ccn: string, resourceId: string, isNew: bool)
    requires var calls := Convert(report, header, o).calls;
             |calls| > 0 && calls[|calls| - 1].PostTransaction?
    ensures |report| >= 2 && report[1].resource.content.Bundle?
    ensures var bundle := PostBundle(ccn, resourceId, isNew, o.observationSearch, report[1].resource.content.entries);
            && |bundle| > 0 && bundle[|bundle| - 1].PostTransaction?
            && Posted(Convert(report, header, o).calls) == Posted(bundle)
  {
    var calls := Convert(report, header, o).calls;
    var crid;
    ccn, crid := ConvertReaches(report, header, o, |calls| - 1);
    var content := report[1].resource.content.entries;
    var sub := Submit(ccn, crid, content, o);
    PostedSuffix([calls[0]], sub);
    isNew, resourceId := SubmitPosted(ccn, crid, content, o);
  }

  /** A run ends the way its non-empty tail ends. */
  lemma PostedSuffix(a: seq<Call>, b: seq<Call>)
    requires |b| > 0
    ensures (a + b)[|a + b| - 1] == b[|b| - 1]
    ensures Posted(a + b) == Posted(b)
  {
  }

  /** For a patient the existence check found, `Submit` is the check and `postBundle`. */
  lemma KnownPatientSubmit(ccn: string, crid: string, content: seq<Entry>, o: Oracles)
    requires ExistingPatientId(o.patientSearch).Some?
    ensures Submit(ccn, crid, content, o)
            == [SearchPatient(ccn, crid)]
               + PostBundle(ccn, ExistingPatientId(o.patientSearch).value, false, o.observationSearch, content)
  {
  }

  /** For a patient the existence check did not find, `Submit` is the check,
      the create, and `postBundle` with `isPatientNew` set when the create
      reply names a resource id. */
  lemma UnknownPatientSubmit(ccn: string, crid: string, content: seq<Entry>, o: Oracles)
    requires ExistingPatientId(o.patientSearch).None?
    ensures Submit(ccn, crid, content, o)
            == [SearchPatient(ccn, crid), CreatePatient(PatientPayloadFor(ccn, crid))]
               + (if ParseLocation(o.create).Some?
                  then PostBundle(ccn, ParseLocation(o.create).value, true, o.observationSearch, content)
                  else [])
  {
  }

  /** The record a run creates is one the run's own existence check, which
      comes just before the create, finds. */
  lemma RunCreatesWhatItSearches(report: seq<Entry>, header: Header, o: Oracles, i: nat)
    requires var calls := Convert(report, header, o).calls;
             i < |calls| && calls[i].CreatePatient?
    ensures var calls := Convert(report, header, o).calls;
            && i == 2 && calls[1].SearchPatient?
            && MatchesPatientQuery(calls[i].patient, calls[1].ccn, calls[1].crid)
  {
    var calls := Convert(report, header, o).calls;
    var ccn, crid := ConvertReaches(report, header, o, i);
    var sub := Submit(ccn, crid, report[1].resource.content.entries, o);
    CreateExactlyWhenAbsent(report, header, o);
    assert calls[1] == sub[0] && calls[2] == sub[1];
    CreatedPatientIsFound(ccn, crid, ccn);
  }

  /** A run for a patient the registry holds, over a report whose
      observations the registry all holds, creates nothing and posts nothing. */
  lemma AllHeldRunPostsNothing(report: seq<Entry>, header: Header, o: Oracles)
    requires |report| >= 2 && report[1].resource.content.Bundle?
    requires AllHeld(ObservationsOf(report[1].resource.content.entries), o.observationSearch)
    requires ExistingPatientId(o.patientSearch).Some?
    ensures var calls := Convert(report, header, o).calls;
            !Creates(calls) && forall i :: 0 <= i < |calls| ==> !calls[i].PostTransaction?
  {
    var calls := Convert(report, header, o).calls;
    CreateExactlyWhenAbsent(report, header, o);
    forall i | 0 <= i < |calls|
      ensures !calls[i].PostTransaction?
    {
      if calls[i].PostTransaction? {
        var ccn, crid := ConvertReaches(report, header, o, i);
        var content := report[1].resource.content.entries;
        var existing := ExistingPatientId(o.patientSearch).value;
        KnownPatientSubmit(ccn, crid, content, o);
        HeldPostsNothing(ccn, existing, o.observationSearch, content);
        assert false;
      }
    }
  }

  /** Resubmission is idempotent: once the registry holds the patient and
      everything the first run posted or found held, running again on the
      same report creates nothing and posts no bundle. */
  lemma ResubmissionPostsNothing(report: seq<Entry>, header: Header, o1: Oracles, o2: Oracles)
    requires var calls := Convert(report, header, o1).calls;
             |calls| > 0 && calls[|calls| - 1].PostTransaction?
    requires ExistingPatientId(o2.patientSearch).Some?
    requires forall b :: b in Posted(Convert(report, header, o1).calls) && SourceIdentifier(b).Some? ==>
               ReportsExisting(o2.observationSearch(SourceIdentifier(b).value))
    requires forall url :: ReportsExisting(o1.observationSearch(url)) ==> ReportsExisting(o2.observationSearch(url))
    ensures var calls := Convert(report, header, o2).calls;
            !Creates(calls) && forall i :: 0 <= i < |calls| ==> !calls[i].PostTransaction?
  {
    var obs := PostedRunCoversReport(report, header, o1);
    CoveredThenHeld(obs, o1.observationSearch, Posted(Convert(report, header, o1).calls), o2.observationSearch);
    AllHeldRunPostsNothing(report, header, o2);
  }
}

=== FILE: registry.dfy ===
/** The outbound side: the registry client's base URL, the payloads it
    sends, the remote calls it makes, and the replies it can get back. */
module Registry {
  import opened Wrappers
  import opened Text
  import opened Security
  import Report

  /** A converter bound to the registry's base URL. */
  datatype Client = Client(baseUrl: string)

  /** The constructor: the base URL gains a trailing slash unless it has one. */
  function NewClient(url: string): (c: Client)
    ensures EndsWith(c.baseUrl, "/")
    ensures |url| <= |c.baseUrl| <= |url| + 1 && c.baseUrl[..|url|] == url
    ensures EndsWith(url, "/") ==> c.baseUrl == url
  {
    if EndsWith(url, "/") then Client(url) else Client(url + "/")
  }

  /** Normalising an already normalised base URL changes nothing. */
  lemma NewClientIdempotent(url: string)
    ensures NewClient(NewClient(url).baseUrl) == NewClient(url)
  {
  }

  datatype OfficialIdentifier = OfficialIdentifier(use: string, system: string, value: string)

  /** The body of `PUT CRID`. */
  datatype CridRequest = CridRequest(ccn: string, firstName: string, lastName: Option<string>,
                                     birthDate: string, gender: string)

  /** The body of `POST Patient`. */
  datatype PatientPayload = PatientPayload(meta: Meta, textStatus: string, identifiers: seq<OfficialIdentifier>)

  datatype Request = Request(httpMethod: string, url: string)

  /** The Observation resource of one transaction-bundle entry. */
  datatype ObservationPayload = ObservationPayload(
    meta: Meta, subject: string, effectiveDateTime: Option<string>,
    coding: Report.Coding, valueQuantity: Report.Quantity, identifiers: seq<OfficialIdentifier>)

  /** One entry of the transaction bundle. */
  datatype BatchEntry = BatchEntry(request: Request, resource: ObservationPayload)

  /** One remote call, in the order the converter issues them. */
  datatype Call =
    | PutCrid(request: CridRequest)
    | SearchPatient(ccn: string, crid: string)
    | CreatePatient(patient: PatientPayload)
    | SearchObservation(identifier: string)
    | PostTransaction(entries: seq<BatchEntry>)

  /** The URL a call is sent to; every one lies below the base URL, at the
      endpoint of its kind. */
  function Target(client: Client, c: Call): (url: string)
    ensures |client.baseUrl| < |url| && url[..|client.baseUrl|] == client.baseUrl
    ensures c.PutCrid? ==> url == client.baseUrl + "CRID"
    ensures c.SearchPatient? ==>
      url == client.baseUrl + PatientQuery(SecurityTag(CcnSystem, TagPrefix + c.ccn), c.crid)
    ensures c.CreatePatient? ==> url == client.baseUrl + "Patient"
    ensures c.SearchObservation? ==> url == client.baseUrl + "Observation?identifier=" + c.identifier
    ensures c.PostTransaction? ==> url == client.baseUrl + "Bundle"
  {
    var path := match c
      case PutCrid(_) => "CRID"
      case SearchPatient(ccn, crid) => PatientQuery(SecurityTag(CcnSystem, TagPrefix + ccn), crid)
      case CreatePatient(_) => "Patient"
      case SearchObservation(id) => "Observation?identifier=" + id
      case PostTransaction(_) => "Bundle";
    assert (client.baseUrl + path)[..|client.baseUrl|] == client.baseUrl;
    client.baseUrl + path
  }

  /** The query of the existence check: records carrying security tag
      `tag` (system and code joined by an encoded `|`) and identifier `crid`. */
  function PatientQuery(tag: SecurityTag, crid: string): string {
    "Patient?_security=" + tag.system + "%7C" + tag.code + "&identifier=" + crid
  }

  /** The existence check filters on exactly the security tag `getMeta`
      writes for the CCN, and on the crid as identifier. */
  lemma PatientSearchFiltersOnTag(client: Client, ccn: string, crid: string)
    ensures Target(client, SearchPatient(ccn, crid))
            == client.baseUrl + PatientQuery(GetMeta(ccn).security[0], crid)
  {
  }

  /** The dedup search URL determines the identifier it looks up, so
      different fullUrls are never confused. */
  lemma {:induction false} ObservationSearchDistinguishes(client: Client, a: string, b: string)
    ensures Target(client, SearchObservation(a)) == Target(client, SearchObservation(b)) <==> a == b
  {
    var prefix := client.baseUrl + "Observation?identifier=";
    var ta := Target(client, SearchObservation(a));
    var tb := Target(client, SearchObservation(b));
    assert ta == prefix + a;
    assert tb == prefix + b;
    if ta == tb {
      assert a == ta[|prefix|..];
      assert b == tb[|prefix|..];
    }
  }

  /** The reply to `PUT CRID`: `CridFailed` when the call or the parsing of
      its body threw; otherwise the `perfectMatch` array, each element's
      `crid` as its decimal text, or `None` when it is not a number. */
  datatype CridReply = CridFailed | PerfectMatches(crids: seq<Option<string>>)

  /** A search result body: `total` is the JSON integer `total`, or `None`
      when the body is not a JSON object with an integer `total`; `firstId`
      is `None` when `entry[0].resource.id` cannot be read. */
  datatype SearchBody = SearchBody(total: Option<int>, firstId: Option<string>)

  /** The reply to a GET search: `SearchFailed` when executing it threw,
      otherwise the status and the body, if the response had one. */
  datatype SearchReply = SearchFailed | SearchResponse(status: int, body: Option<SearchBody>)

  /** The reply to `POST Patient`: `CreateFailed` when executing it threw,
      otherwise the status and the first `Location` header, if any. */
  datatype CreateReply = CreateFailed | CreateResponse(status: int, location: Option<string>)

  /** The shared GET response handler hands over a body only for status 200. */
  function HandledBody(r: SearchReply): (b: Option<SearchBody>)
    requires r.SearchResponse?
    ensures b.Some? <==> r.status == 200 && r.body.Some?
    ensures b.Some? ==> b == r.body
  {
    if r.status != 200 then None else r.body
  }

  /** Java's narrowing of an integer to `int`, which `getInt` applies to a
      JSON integer: the value in the 32-bit range that differs from it by a
      multiple of 2^32. */
  function JavaInt(n: int): (r: int)
    ensures -0x8000_0000 <= r < 0x8000_0000
    decreases if n < 0 then -2 * n else 2 * n + 1
  {
    if n < -0x8000_0000 then JavaInt(n + 0x1_0000_0000)
    else if n < 0x8000_0000 then n
    else JavaInt(n - 0x1_0000_0000)
  }

  /** The narrowed value is congruent to the original modulo 2^32, and a
      total already in range is read unchanged. */
  lemma {:induction false} JavaIntNarrows(n: int)
    ensures (n - JavaInt(n)) % 0x1_0000_0000 == 0
    ensures -0x8000_0000 <= n < 0x8000_0000 ==> JavaInt(n) == n
    decreases if n < 0 then -2 * n else 2 * n + 1
  {
    if n < -0x8000_0000 {
      JavaIntNarrows(n + 0x1_0000_0000);
    } else if n >= 0x8000_0000 {
      JavaIntNarrows(n - 0x1_0000_0000);
    }
  }

  /** The search executed, answered 200, and `getInt("total")` is above 0. */
  predicate ReportsExisting(r: SearchReply) {
    r.SearchResponse? && HandledBody(r).Some?
    && HandledBody(r).value.total.Some? && JavaInt(HandledBody(r).value.total.value) > 0
  }

  /** Evaluating the search throws: executing it failed, or the 200 body
      has no readable `total`. */
  predicate SearchThrows(r: SearchReply) {
    r.SearchFailed? || (HandledBody(r).Some? && HandledBody(r).value.total.None?)
  }
}


=== FILE: report.dfy ===
/** The inbound MedMorph report: the HAPI FHIR resources the converter reads,
    reduced to the fields it touches. */
module Report {
  import opened Wrappers

  /** `AdministrativeGender`; only its display text is ever sent. */
  datatype Gender = Male | Female | Other | Unknown

  /** `AdministrativeGender.getDisplay()`. */
  function GenderDisplay(g: Gender): string {
    match g
    case Male => "Male"
    case Female => "Female"
    case Other => "Other"
    case Unknown => "Unknown"
  }

  datatype HumanName = HumanName(family: Option<string>, given: seq<string>)

  /** An identifier of an Organization; either part may be unset. */
  datatype Identifier = Identifier(system: Option<string>, value: Option<string>)

  /** A code, copied verbatim into the outbound observation. */
  datatype Coding = Coding(system: Option<string>, code: Option<string>, display: Option<string>)

  /** A quantity; `value` is the decimal's text, copied verbatim. */
  datatype Quantity = Quantity(value: Option<string>, unit: Option<string>, system: Option<string>, code: Option<string>)

  /** `Observation.value[x]`: a Quantity, or a value of any other type; an
      absent one reads as a Quantity with no parts. */
  datatype ObservationValue = QuantityValue(quantity: Quantity) | OtherValue

  /** `Observation.effective[x]`: a dateTime (its rendered instant), or
      another type; an absent one reads as a dateTime without a value. */
  datatype Effective = EffectiveDateTime(instant: Option<string>) | OtherEffective

  datatype Content =
    | Patient(names: seq<HumanName>, birthDate: Option<string>, gender: Option<Gender>)
    | Observation(codings: seq<Coding>, effective: Effective, value: ObservationValue)
    | Organization(identifiers: seq<Identifier>)
    | Bundle(entries: seq<Entry>)
    | OtherResource

  /** A resource with its (possibly type-qualified) logical id. */
  datatype Resource = Resource(id: Option<string>, content: Content)

  /** A bundle entry; `fullUrl` is `None` when `hasFullUrl()` is false. */
  datatype Entry = Entry(fullUrl: Option<string>, resource: Resource)

  /** The MessageHeader handed to `convert` next to the report. */
  datatype Header = Header(senderReference: Option<string>)

  predicate IsPatient(e: Entry) {
    e.resource.content.Patient?
  }

  predicate IsObservation(e: Entry) {
    e.resource.content.Observation?
  }

  /** The first Patient entry of `entries`, if there is one. */
  function FirstPatient(entries: seq<Entry>): (r: Option<Entry>)
    ensures r.Some? <==> exists i :: 0 <= i < |entries| && IsPatient(entries[i])
    ensures r.Some? ==> exists i :: 0 <= i < |entries| && entries[i] == r.value && IsPatient(entries[i])
                                   && forall j :: 0 <= j < i ==> !IsPatient(entries[j])
  {
    if |entries| == 0 then None
    else if IsPatient(entries[0]) then Some(entries[0])
    else
      var r := FirstPatient(entries[1..]);
      assert forall i :: 1 <= i < |entries| ==> entries[i] == entries[1..][i - 1];
      r
  }

  /** The Observation entries of `entries`, in order. */
  function ObservationsOf(entries: seq<Entry>): (r: seq<Entry>)
    ensures |r| <= |entries|
    ensures forall i :: 0 <= i < |r| ==> IsObservation(r[i])
  {
    if |entries| == 0 then []
    else if IsObservation(entries[0]) then [entries[0]] + ObservationsOf(entries[1..])
    else ObservationsOf(entries[1..])
  }

  /** `ObservationsOf` selects exactly the Observation entries: each comes
      from the input, and each Observation of the input is selected. */
  lemma {:induction false} ObservationsOfSelects(entries: seq<Entry>)
    ensures forall e :: e in ObservationsOf(entries) ==> e in entries
    ensures forall e :: e in entries && IsObservation(e) ==> e in ObservationsOf(entries)
  {
    if |entries| > 0 {
      ObservationsOfSelects(entries[1..]);
      assert entries == [entries[0]] + entries[1..];
    }
  }

  /** The selection keeps the entries' order: selecting from two halves and
      joining the results is selecting from the whole. */
  lemma {:induction false} ObservationsOfAppend(a: seq<Entry>, b: seq<Entry>)
    ensures ObservationsOf(a + b) == ObservationsOf(a) + ObservationsOf(b)
  {
    if |a| > 0 {
      assert (a + b)[1..] == a[1..] + b;
      ObservationsOfAppend(a[1..], b);
    } else {
      assert a + b == b;
    }
  }
}

=== FILE: scenarios.dfy ===
/** Concrete runs: the report with John Doe and two vital-sign observations,
    answered by the registry in the ways the converter must handle. */
module Scenarios {
  import opened Wrappers
  import opened Text
  import opened Security
  import opened Report
  import opened Registry
  import opened CcnResolver
  import opened Patients
  import opened Observations
  import opened Pipeline

  const TestCcn: string := "12001"
  const TestCrid: string := "1982897480019337"
  const TestResourceId: string := "8557319952834071"
  const TestLocationBase: string := "http://localhost:4444/"

  function JohnDoe(): Entry {
    Entry(Some("urn:uuid:patient"),
          Resource(None, Patient([HumanName(Some("Doe"), ["John"])], Some("2000-01-01"), Some(Male))))
  }

  function Vital(fullUrl: string, code: string, display: string, value: string, unit: string): Entry {
    Entry(Some(fullUrl),
          Resource(None, Observation([Coding(Some("http://loinc.org"), Some(code), Some(display))],
                                     EffectiveDateTime(Some("2010-01-01")),
                                     QuantityValue(Quantity(Some(value), Some(unit),
                                                            Some("http://unitsofmeasure.org"), Some(unit))))))
  }

  function Height(): Entry { Vital("urn:uuid:height", "8302-2", "Body Height", "69.8", "cm") }
  function Weight(): Entry { Vital("urn:uuid:weight", "29463-7", "Body Weight", "68.2", "kg") }

  function TestContent(): seq<Entry> { [JohnDoe(), Height(), Weight()] }

  function TestReport(): seq<Entry> {
    [ Entry(None, Resource(Some("header"), OtherResource)),
      Entry(None, Resource(Some("content"), Bundle(TestContent()))),
      Entry(None, Resource(Some("Organization/org-1"),
                           Organization([Identifier(Some(CcnSystem), Some(TestCcn))]))) ]
  }

  function TestHeader(): Header { Header(Some("Organization/org-1")) }

  /** A 200 search reply with the given total and no readable first hit. */
  function Total(n: int): SearchReply { SearchResponse(200, Some(SearchBody(Some(n), None))) }

  /** The registry knows nobody and creates the patient at the test location. */
  function FreshRegistry(cridReply: CridReply, patientSearch: SearchReply): Oracles {
    Oracles(cridReply, patientSearch,
            CreateResponse(201, Some(TestLocationBase + PatientMarker + TestResourceId)),
            _ => Total(0))
  }

  function TestCridRequest(): CridRequest {
    CridRequest(TestCcn, "John", Some("Doe"), "2000-01-01", "Male")
  }

  lemma TestReportResolves()
    ensures |TestReport()| >= 2 && TestReport()[1].resource.content == Bundle(TestContent())
    ensures GetCcn(TestReport(), TestHeader()) == Returned(Some(TestCcn))
    ensures FirstPatient(TestContent()) == Some(JohnDoe())
    ensures CridRequestFor(TestCcn, JohnDoe().resource.content) == Some(TestCridRequest())
  {
    var entries := TestReport();
    assert YieldsCcn(entries[2].resource.content.identifiers, TestCcn) by {
      assert Qualifies(entries[2].resource.content.identifiers[0]);
    }
    GetCcnResolves(entries, "org-1", 2, TestCcn);
  }

  lemma VitalsAreTheObservations()
    ensures ObservationsOf(TestContent()) == [Height(), Weight()]
  {
    assert TestContent()[1..] == [Height(), Weight()];
    assert TestContent()[1..][1..] == [Weight()];
    assert TestContent()[1..][1..][1..] == [];
  }

  lemma NewPatientKeepsVitals(lookup: string -> SearchReply)
    ensures VerdictOf(true, lookup, Height()) == Keep && VerdictOf(true, lookup, Weight()) == Keep
    ensures Kept(true, lookup, [Height(), Weight()]) == [Height(), Weight()]
  {
    assert Buildable(Height().resource.content) && Buildable(Weight().resource.content);
    assert [Height(), Weight()][1..] == [Weight()];
    assert [Weight()][1..] == [];
  }

  /** For the new patient both observations are kept, in order, without a search. */
  lemma NewPatientBundle(lookup: string -> SearchReply)
    ensures PostBundle(TestCcn, TestResourceId, true, lookup, TestContent())
            == [PostTransaction([EntryFor(TestCcn, TestResourceId, Height()),
                                 EntryFor(TestCcn, TestResourceId, Weight())])]
  {
    VitalsAreTheObservations();
    NewPatientKeepsVitals(lookup);
    var obs := [Height(), Weight()];
    var scan := ScanEntries(TestCcn, TestResourceId, true, lookup, obs);
    assert scan.batch == Some(EntriesFor(TestCcn, TestResourceId, obs));
    assert scan.queried == [];
    assert EntriesFor(TestCcn, TestResourceId, obs)
           == [EntryFor(TestCcn, TestResourceId, Height()), EntryFor(TestCcn, TestResourceId, Weight())];
  }

  /** The test report reaches `Submit` once the crid is known. */
  lemma TestReportReachesSubmit(report: seq<Entry>, header: Header, o: Oracles)
    requires report == TestReport() && header == TestHeader()
    requires GetCrid(o.crid) == Some(TestCrid)
    ensures Convert(report, header, o).calls == [PutCrid(TestCridRequest())] + Submit(TestCcn, TestCrid, TestContent(), o)
  {
    TestReportResolves();
    ConvertComposes(report, header, o, TestContent(), TestCcn, JohnDoe());
  }

  /** One perfect match, no existing patient, a created patient at
      `.../Patient/8557319952834071`: the patient is created once and both
      observations go out in one bundle naming it, with no dedup search. */
  lemma NewPatientScenario(report: seq<Entry>, header: Header, o: Oracles)
    requires report == TestReport() && header == TestHeader()
    requires o == FreshRegistry(PerfectMatches([Some(TestCrid)]), Total(0))
    ensures var calls := Convert(report, header, o).calls;
            && |calls| == 4
            && calls[0] == PutCrid(TestCridRequest())
            && calls[1] == SearchPatient(TestCcn, TestCrid)
            && calls[2] == CreatePatient(PatientPayloadFor(TestCcn, TestCrid))
            && calls[3] == PostTransaction([EntryFor(TestCcn, TestResourceId, Height()),
                                            EntryFor(TestCcn, TestResourceId, Weight())])
  {
    TestReportReachesSubmit(report, header, o);
    NewPatientSubmit(o);
  }

  /** No perfect match: the CRID request is the only call. */
  lemma NoMatchScenario(report: seq<Entry>, header: Header, o: Oracles)
    requires report == TestReport() && header == TestHeader()
    requires o == FreshRegistry(PerfectMatches([]), Total(0))
    ensures Convert(report, header, o).calls == [PutCrid(TestCridRequest())]
  {
    TestReportResolves();
  }

  /** A failing existence check reads as "no such patient": the converter
      goes on to create one. */
  lemma FailedCheckStillCreates(report: seq<Entry>, header: Header, o: Oracles)
    requires report == TestReport() && header == TestHeader()
    requires o == FreshRegistry(PerfectMatches([Some(TestCrid)]), SearchFailed)
    ensures var calls := Convert(report, header, o).calls;
            |calls| > 2 && calls[2] == CreatePatient(PatientPayloadFor(TestCcn, TestCrid))
  {
    TestReportReachesSubmit(report, header, o);
    assert ExistingPatientId(o.patientSearch).None?;
  }

  lemma NewPatientSubmit(o: Oracles)
    requires o == FreshRegistry(PerfectMatches([Some(TestCrid)]), Total(0))
    ensures Submit(TestCcn, TestCrid, TestContent(), o)
            == [ SearchPatient(TestCcn, TestCrid),
                 CreatePatient(PatientPayloadFor(TestCcn, TestCrid)),
                 PostTransaction([EntryFor(TestCcn, TestResourceId, Height()),
                                  EntryFor(TestCcn, TestResourceId, Weight())]) ]
  {
    FirstCharAbsent(TestLocationBase, PatientMarker);
    ParseLocationRoundTrip(201, TestLocationBase, TestResourceId);
    NewPatientBundle(o.observationSearch);
    assert ExistingPatientId(o.patientSearch).None?;
  }
}

=== FILE: security.dfy ===
/** The registry's security tag (`getMeta`) and the code systems the
    converter writes. */
module Security {
  import opened Wrappers

  /** The code system of transplant-center codes (CCNs). */
  const CcnSystem: string := "http://cibmtr.org/codesystem/transplant-center"
  /** The identifier system of CRIDs. */
  const CridSystem: string := "http://cibmtr.org/identifier/CRID"
  /** The identifier system of an observation's source URI. */
  const ResourceIdentifierSystem: string := "urn:ietf:rfc:3986"
  /** Every security code is the CCN behind this prefix. */
  const TagPrefix: string := "rc_"

  datatype SecurityTag = SecurityTag(system: string, code: string)

  /** The `meta` object of every record the converter writes. */
  datatype Meta = Meta(security: seq<SecurityTag>)

  /** The CCN a tag scopes to: the code behind `rc_` under the CCN system. */
  function TagCcn(tag: SecurityTag): (r: Option<string>)
    ensures r.Some? ==> tag.system == CcnSystem && tag.code == TagPrefix + r.value
  {
    if tag.system == CcnSystem && |TagPrefix| <= |tag.code| && tag.code[..|TagPrefix|] == TagPrefix
    then Some(tag.code[|TagPrefix|..])
    else None
  }

  /** `getMeta(ccn)`: one security tag, and it scopes to `ccn`. */
  function GetMeta(ccn: string): (m: Meta)
    ensures |m.security| == 1
    ensures m.security[0].system == CcnSystem && m.security[0].code == TagPrefix + ccn
    ensures TagCcn(m.security[0]) == Some(ccn)
  {
    var tag := SecurityTag(CcnSystem, TagPrefix + ccn);
    assert tag.code[..|TagPrefix|] == TagPrefix && tag.code[|TagPrefix|..] == ccn;
    Meta([tag])
  }

  /** Distinct CCNs get distinct security metadata, so no record written for
      one transplant center is visible under another's tag. */
  lemma GetMetaInjective(a: string, b: string)
    ensures GetMeta(a) == GetMeta(b) <==> a == b
  {
    if GetMeta(a) == GetMeta(b) {
      assert Some(a) == TagCcn(GetMeta(a).security[0]) == TagCcn(GetMeta(b).security[0]) == Some(b);
    }
  }
}

=== FILE: text.dfy ===
/** The few `java.lang.String` operations the converter relies on, over
    `string` (a `seq<char>`). */
module Text {

  /** `p` occurs in `s` starting at index `k`. */
  predicate OccursAt(s: string, p: string, k: int) {
    0 <= k && k + |p| <= |s| && s[k..k + |p|] == p
  }

  /** `s.contains(p)`. */
  ghost predicate Contains(s: string, p: string) {
    exists k :: OccursAt(s, p, k)
  }

  /** `s.endsWith(suffix)`. */
  predicate EndsWith(s: string, suffix: string) {
    |suffix| <= |s| && s[|s| - |suffix|..] == suffix
  }

  /** The first occurrence of `p` in `s` at or after `from`, or -1. */
  function IndexOfFrom(s: string, p: string, from: nat): (r: int)
    decreases |s| - from
    ensures r == -1 || (from <= r && OccursAt(s, p, r))
    ensures forall j :: from <= j && (r == -1 || j < r) ==> !OccursAt(s, p, j)
  {
    if from + |p| > |s| then -1
    else if s[from..from + |p|] == p then from
    else IndexOfFrom(s, p, from + 1)
  }

  /** `s.indexOf(p)`: the first index at which `p` occurs, -1 when it does not. */
  function IndexOf(s: string, p: string): (r: int)
    ensures r == -1 <==> !Contains(s, p)
    ensures r != -1 ==> OccursAt(s, p, r) && forall j :: 0 <= j < r ==> !OccursAt(s, p, j)
  {
    IndexOfFrom(s, p, 0)
  }

  /** A pattern whose first character is missing from `s` does not occur in it. */
  lemma FirstCharAbsent(s: string, p: string)
    requires |p| > 0 && p[0] !in s
    ensures !Contains(s, p)
  {
  }

  /** An occurrence that ends within `a` is the same in `a` and in `a + b`. */
  lemma OccursInPrefix(a: string, b: string, p: string, k: int)
    requires 0 <= k && k + |p| <= |a|
    ensures OccursAt(a + b, p, k) <==> OccursAt(a, p, k)
  {
    assert (a + b)[k..k + |p|] == a[k..k + |p|];
  }

  /** When `p` does not occur in `prefix` and its last character appears
      nowhere else in it, the first occurrence of `p` in `prefix + p + rest`
      is right after `prefix`: no occurrence can straddle the boundary. */
  lemma IndexOfAfterPrefix(prefix: string, p: string, rest: string)
    requires |p| > 0 && forall j :: 0 <= j < |p| - 1 ==> p[j] != p[|p| - 1]
    requires !Contains(prefix, p)
    ensures IndexOf(prefix + p + rest, p) == |prefix|
  {
    var s := prefix + p + rest;
    assert s[|prefix|..|prefix| + |p|] == p;
    assert OccursAt(s, p, |prefix|);
    forall j | 0 <= j < |prefix|
      ensures !OccursAt(s, p, j)
    {
      if j + |p| <= |prefix| {
        OccursInPrefix(prefix, p + rest, p, j);
        assert s == prefix + (p + rest);
        assert !OccursAt(prefix, p, j);
      } else {
        var m := j + |p| - 1 - |prefix|;
        assert s[j + |p| - 1] == p[m] != p[|p| - 1];
      }
    }
  }
}

=== FILE: wrappers.dfy ===
/** Failure-carrying datatypes shared by the whole model. */
module Wrappers {

  /** A value that may be absent; `None` stands for a Java `null`. */
  datatype Option<+T> = None | Some(value: T)

  /** The outcome of a Java call that either returns a value or lets an
      exception escape to its caller. */
  datatype Attempt<+T> = Returned(value: T) | Raised
}
